=== FILE: README.md ===
# Promptly client state, in Dafny

This project models the browser-side state layer of Promptly, a Next.js prompt
marketplace. There is no back end: everything lives in memory and in the
browser's `localStorage`. The model covers:

- the **shopping cart**: a list of entries keyed by prompt id, written through
  to storage on every change, with a derived count and total;
- the **purchased-prompt id list**: de-duplicated on write, read defensively,
  with failed writes swallowed;
- the **user-submitted prompts**: an append-only list of records, with
  first-match lookup by id;
- the **mock session**: an in-memory credential list seeded with two accounts,
  plus login, signup and logout, with the current user mirrored to storage;
- the **mock catalogue**: the eight prompts, the AI model list, the purchase
  and sales tables, and the admin revenue table with its 20% platform fee;
- the **home page's model filter** over the catalogue.

`localStorage` is a `Store`: a map from key to what `getItem` returns. A value is
either `EmptyText` (falsy, read as nothing), `Malformed` (text that
`JSON.parse` rejects) or `Parsed(v)` with `v` a JSON value. A write that the
source wraps in `try … catch` and ignores takes an `accepts` flag; a refused
write leaves the store as it was. Clocks (`Date.now()`,
`new Date().toISOString()`) are parameters. React state holders become explicit
state values, and every hook callback becomes a pure function from the old
state to the new one.

Modules:

- `Wrappers`: `Option`.
- `Json`: JSON values and the store.
- `Seqs`: `filter`, `find`, `Array.from(new Set(…))` and the subsequence
  relation.
- `Catalog`: the mock data.
- `PromptJson`: prompt records as JSON.
- `Cart`, `Purchases`, `UserPrompts`, `Auth`, `HomeGrid`: one module per source
  file of the client-state layer (lib/cart-context.tsx, lib/purchase-storage.ts,
  lib/user-prompts.ts, lib/auth-context.tsx and the grid of
  components/home-sections.tsx).

Three derived values are plain functions whose properties are stated by the
operations around them rather than by rows of their own: `Cart.ItemCount`
(`itemCount`, lib/cart-context.tsx:81) is the number of entries, which
`Cart.AddRaisesTotals`, `Cart.RemoveLowersTotals` and `Cart.ClearCart` track;
`Auth.IsLoggedIn` (`!!user`, lib/auth-context.tsx:101) is stated by
`Auth.Login`, `Auth.Logout` and `Auth.AdminLogin`; and `HomeGrid.PromptGrid`
(components/home-sections.tsx:119-121) is `HomeGrid.FilterByModel` over the
catalogue, whose order and distinct ids `HomeGrid.GridKeepsOrder` and
`HomeGrid.GridIdsDistinct` state.

## Model

| member | source | states |
|---|---|---|
| Seqs.Filter | lib/cart-context.tsx:59 | every kept element passes and comes from the input, every passing element of the input is kept, the result is no longer than the input, and it is the input itself when every element passes |
| Seqs.FilterCounts | lib/cart-context.tsx:59 | each passing value is kept exactly as often as it occurs in the input and each failing one never; with `FilterIsSubsequence` this determines the result |
| Seqs.FilterIsSubsequence | lib/user-prompts.ts:11-13 | filtering keeps the input's order: the result is a subsequence of the input |
| Seqs.Dedup | lib/purchase-storage.ts:23 | a Set rebuilt as an array has no repeats, has the same elements as the input, lists them in order of first occurrence, and leaves a repeat-free input unchanged |
| Seqs.DedupSnoc | lib/purchase-storage.ts:23 | one more element is appended exactly when it was not seen before |
| Seqs.FindFirst | lib/auth-context.tsx:60 | `find` gives nothing exactly when no element matches, and otherwise gives a matching element with no match before it |
| Seqs.FindFirstExtend | lib/user-prompts.ts:41-44 | appending cannot change a match that was already found |
| Json.TryPut | lib/purchase-storage.ts:22-27 | an accepted write stores the value under the key, a refused one changes nothing, and other keys are untouched either way |
| Catalog.ModelFromName | lib/mock-data.ts:1 | a name reads as a model only when that model's name is exactly that string |
| Catalog.ModelNameRoundTrip | lib/mock-data.ts:1 | every model's name reads back as that model |
| Catalog.AIModelsListEachModelOnce | lib/mock-data.ts:18-25 | the filter's model list names every model, each exactly once |
| Catalog.PromptIdsDistinct | lib/mock-data.ts:27-140 | no two catalogue prompts share an id |
| Catalog.PromptAmountsNonNegative | lib/mock-data.ts:27-140 | every catalogue price and sales count is non-negative |
| Catalog.PromptById | lib/mock-data.ts:27-140 | looking up the catalogue by id, as the prompt detail page does: a found prompt is in the list and has the id; nothing is found exactly when no prompt has the id |
| Catalog.PromptByIdFindsEntry | lib/mock-data.ts:27-140 | with distinct ids, looking up an entry's id finds that entry |
| Catalog.PurchasesMatchCatalogue | lib/mock-data.ts:158-162 | every purchase row names a catalogue prompt and repeats its title and price |
| Catalog.SellerRevenue | lib/mock-data.ts:165-166 | the seller's revenue plus a fifth of gross sales is the gross |
| Catalog.SalesMatchCatalogue | lib/mock-data.ts:164-167 | every sales row names a catalogue prompt, repeats its title and sales count, and books 80% of count times price |
| Catalog.Settle | lib/mock-data.ts:169-176 | a month's fee is a fifth of its sales total and the payout is the rest, so the two add up to the total |
| Catalog.AdminRevenueFollowsFeeRule | lib/mock-data.ts:178-184 | every row of the admin revenue table is the settlement of its gross amount: a 20% fee and the remainder paid out |
| PromptJson.EncodePrompt | lib/mock-data.ts:3-16 | the stored object carries every field of the prompt under its own key, and omits an absent optional field |
| PromptJson.DecodePrompt | lib/mock-data.ts:3-16 | a record reads as a prompt only when every field has the prompt's type under its own key |
| PromptJson.PromptRoundTrip | lib/mock-data.ts:3-16 | a stored prompt reads back as the same prompt |
| Cart.IsInCartMeansSomeEntry | lib/cart-context.tsx:70-73 | `isInCart` holds exactly when some entry carries the id |
| Cart.TotalPrice | lib/cart-context.tsx:75 | the total of non-negative prices is non-negative |
| Cart.TotalPriceAppend | lib/cart-context.tsx:75 | the total of two lists joined is the sum of their totals |
| Cart.DecodeCart | lib/cart-context.tsx:30 | a parsed value reads as a cart only when it is an array whose every element reads as the entry at the same position |
| Cart.CartRoundTrip | lib/cart-context.tsx:36-39 | a written entry list reads back as the same list |
| Cart.LoadStoredCart | lib/cart-context.tsx:25-34 | a missing, empty or unparsable value loads as the empty cart, and a readable one loads as what it encodes |
| Cart.SaveCart | lib/cart-context.tsx:36-39 | after the write the stored cart loads as the list written, and other keys are untouched |
| Cart.InitialCart | lib/cart-context.tsx:44-46 | the start-up cart is what the store holds |
| Cart.AddToCart | lib/cart-context.tsx:48-55 | afterwards the prompt is in the cart. A prompt already present changes nothing. Otherwise exactly one entry with the given time is appended, the old entries keep their places, and the list is written through. Distinct ids stay distinct |
| Cart.RemoveFromCart | lib/cart-context.tsx:57-63 | afterwards no entry has the id. Every other entry is kept, in its order, and none is invented. An absent id leaves the list as it was. Distinct ids stay distinct, and the list is written through |
| Cart.RemoveIds | lib/cart-context.tsx:59 | filtering out an id removes it, is the identity when the id is absent, and keeps distinct ids distinct |
| Cart.ClearCart | lib/cart-context.tsx:65-68 | the list is empty with count and total 0, and the empty list is written through |
| Cart.AddRaisesTotals | lib/cart-context.tsx:48-81 | adding a new prompt raises the count by one and the total by its price |
| Cart.AddIdempotent | lib/cart-context.tsx:50 | adding the same prompt twice is the same as adding it once |
| Cart.AddThenRemove | lib/cart-context.tsx:48-63 | adding a new prompt and then removing its id restores the list |
| Cart.RemoveDropsOneEntry | lib/cart-context.tsx:59 | in a cart without repeated ids, removing an entry's id drops exactly that entry |
| Cart.RemoveLowersTotals | lib/cart-context.tsx:57-81 | removing an entry's id lowers the count by one and the total by that entry's price |
| Cart.TotalPriceRemoveAt | lib/cart-context.tsx:75 | dropping one entry lowers the total by its price |
| Cart.AddAllIds | lib/cart-context.tsx:48-55 | after any run of adds, the cart's ids are the ids seen so far, each once, in order of first addition |
| Cart.AddDistinctCount | lib/cart-context.tsx:48-55 | adding prompts with distinct ids to an empty cart gives one entry per prompt, in order |
| Purchases.GetPurchasedPromptIds | lib/purchase-storage.ts:14-18 | an absent key, or a value that is not a parsed array, reads as no ids; a stored array reads as exactly its string elements, in order, and nothing else |
| Purchases.SafeParseIds | lib/purchase-storage.ts:3-12 | missing, empty, unparsable and non-array values read as no ids, and an array reads as its string elements in order |
| Purchases.SafeParseIdsKeepsStrings | lib/purchase-storage.ts:8 | an id is read from an array exactly when the array holds that string |
| Purchases.IdsRoundTrip | lib/purchase-storage.ts:14-24 | a written id list reads back as itself |
| Purchases.SavePurchasedPromptIds | lib/purchase-storage.ts:20-28 | an accepted save stores the ids with repeats removed, and a refused one changes nothing |
| Purchases.SaveStoresFirstOccurrences | lib/purchase-storage.ts:23 | the saved list has no repeats, the same ids as given, and keeps their first-occurrence order |
| Purchases.SaveDistinctUnchanged | lib/purchase-storage.ts:20-28 | a repeat-free list is stored as given, and saving what was read back is a no-op |
| Purchases.AddPurchasedPromptIds | lib/purchase-storage.ts:30-34 | an empty list or a refused write changes nothing; otherwise the stored list becomes the old ids followed by the new ones, with repeats removed |
| Purchases.IsPromptPurchased | lib/purchase-storage.ts:36-40 | the empty id is never purchased, and any other id is purchased exactly when the stored list holds it |
| Purchases.AddMarksPurchased | lib/purchase-storage.ts:30-40 | after a successful add, each new id and each id purchased before reads as purchased |
| Purchases.FailedAddKeepsStatus | lib/purchase-storage.ts:30-34 | a refused write or an empty add leaves every id's status as it was |
| Purchases.AddIsMonotone | lib/purchase-storage.ts:30-34 | a purchased id stays purchased after any add |
| UserPrompts.SafeParse | lib/user-prompts.ts:5-17 | missing, empty, unparsable and non-array values read as nothing. An array reads as its objects with `id` and `title`, in order, each kept as often as it occurs, and nothing else |
| UserPrompts.GetUserPrompts | lib/user-prompts.ts:19-23 | an absent key, or a value that is not a parsed array, reads as nothing; a stored array reads as its records with `id` and `title`, in order, each kept as often as it occurs, and nothing else |
| UserPrompts.SaveUserPrompts | lib/user-prompts.ts:25-32 | an accepted save of records reads back as those records, and a refused one changes nothing |
| UserPrompts.AddUserPrompt | lib/user-prompts.ts:34-39 | the prompt is returned unchanged, and on success the stored list gains exactly its record at the end |
| UserPrompts.FindUserPromptById | lib/user-prompts.ts:41-44 | the result is the first stored record with that id, and nothing exactly when no record has it |
| UserPrompts.AddThenFind | lib/user-prompts.ts:34-44 | after a successful add, the prompt's id is found |
| UserPrompts.AddThenFindFresh | lib/user-prompts.ts:34-44 | when the id was new, the added record is found and reads back as the prompt |
| UserPrompts.AddDoesNotShadow | lib/user-prompts.ts:34-44 | when a record with the id already exists, an add does not change what is found |
| Auth.RoleFromName | lib/auth-context.tsx:11 | a string reads as a role exactly when it is that role's name: `user` and `admin` read as their roles and nothing else reads as a role |
| Auth.DecimalString | lib/auth-context.tsx:63 | the rendered time is a non-empty string of decimal digits with no leading zero |
| Auth.DecimalRoundTrip | lib/auth-context.tsx:63 | the rendered time denotes that time, so different times give different ids |
| Auth.GeneratedId | lib/auth-context.tsx:85 | a generated id is `user-` followed by decimal digits that denote the time, so it is never the admin's fixed id and different times give different ids |
| Auth.UserRoundTrip | lib/auth-context.tsx:7-12 | a written user record reads back as the same user |
| Auth.LoadStoredUser | lib/auth-context.tsx:30-40 | a missing, empty or unparsable record, or one whose email is falsy, reads as signed out. A record with a truthy email reads as the user it encodes, and a restored user always has a non-empty email |
| Auth.SaveUser | lib/auth-context.tsx:42-46 | saving a user makes it load back when its email is non-empty; saving no user removes the key; other keys are untouched |
| Auth.InitialSession | lib/auth-context.tsx:49 | the start-up user is exactly what the stored session decodes to, with a non-empty email, the store is left as it is, and the credentials are the seeded list |
| Auth.Login | lib/auth-context.tsx:57-73 | login succeeds exactly when some credential matches both email and password. The user then gets the nickname and role of the first credential that matches, no earlier credential matches, and the id is the fixed admin id when the email is the admin's and `user-` followed by the login time otherwise. The user is saved to reload unless the email is empty. Failure reports invalid credentials and changes nothing |
| Auth.Signup | lib/auth-context.tsx:75-93 | signup fails exactly when the email is taken, and then changes nothing. Otherwise exactly one `user` credential is appended, and the new user, with a generated id, is signed in and saved |
| Auth.Logout | lib/auth-context.tsx:95-98 | afterwards nobody is signed in, the stored record is gone, and nothing else changes |
| Auth.SignupKeepsEmailsDistinct | lib/auth-context.tsx:78-83 | a signup keeps the credential emails pairwise distinct |
| Auth.SignupsKeepEmailsDistinct | lib/auth-context.tsx:25-93 | starting from the seeded list, emails stay distinct across any run of signups |
| Auth.SecondSignupRefused | lib/auth-context.tsx:78-81 | a second signup with an email already registered is refused |
| Auth.SignupThenLogin | lib/auth-context.tsx:57-93 | in any session, credentials created by a successful signup log in as a `user` with the chosen nickname |
| Auth.AdminLogin | lib/auth-context.tsx:57-73 | the seeded admin logs in as admin with the fixed id, and a wrong password is refused |
| HomeGrid.FilterByModel | components/home-sections.tsx:119-121 | with no model selected the grid is the whole catalogue. With a model selected it lists exactly the catalogue prompts of that model, and only those |
| HomeGrid.FilterIdempotent | components/home-sections.tsx:119-121 | filtering the grid again by the same selection gives the same grid |
| HomeGrid.GridKeepsOrder | components/home-sections.tsx:119-121 | the grid keeps catalogue order |
| HomeGrid.ShownUnderOwnModel | components/home-sections.tsx:119-121 | every prompt is shown under "all", and under a model's button exactly when it is that model's |
| HomeGrid.GridIdsDistinct | components/home-sections.tsx:119-121 | no two prompts in the grid share an id |

## Left out

- React machinery is not modelled: contexts, `useState`, `useCallback`, providers, rendering, and the `typeof window` guards that return empty results during server rendering. The cart's first render before its effect loads the store, and the session's post-hydration re-sync effect, are not modelled either; `InitialCart` and `InitialSession` are the states once loading is done.
- The 800 ms delay before login and signup is left out. `Date.now()` and `new Date().toISOString()` are parameters.
- `JSON.parse` and `JSON.stringify` are modelled on a JSON value type. The text layer and floating-point numbers are not modelled; the model's numbers are integers.
- Cart.LoadStoredCart: the source returns any parsed value cast to a cart without checking it. The model reads a value that does not have the cart's shape as the empty cart.
- Auth.LoadStoredUser: the source returns any parsed object whose `email` is truthy without checking the other fields. The model also requires the fields of a user. It also treats an email only as a string, although JavaScript counts any truthy value.
- A `setItem` that throws in the cart or session code is not modelled. The source does not catch it there; the exception would escape the state update.
- Stored user prompts: the source casts records with `id` and `title` to prompts unchecked. The model keeps them as JSON objects, and `PromptJson.DecodePrompt` gives the typed reading.
- Catalogue entries: the long `content` and `fullDescription` texts of the catalogue entries are not reproduced and are absent in the model. Every other field is exact, including `thumbnailUrl` and `sellerAvatar`, which are the empty string in every entry.
- Model list: the icon and colour class of each model are not modelled.
- Catalog.SellerRevenue: computed in exact rational arithmetic. The source multiplies by the floating-point 0.8.
- Auth error messages are Korean UI text and are not reproduced. The model reports `InvalidCredentials` or `EmailTaken`.
- Credential list: in the source it is a module-level array that survives remounts and is shared by every provider in the page. The model keeps it in the session value.
- Several tabs sharing one store, and any security of the `role` field, are out of scope: the store is a single value, and the role is just data.
- A freshly loaded cart may hold repeated ids if the store was edited by hand. The model proves distinctness is preserved, not that it holds at start-up.

=== FILE: auth.dfy ===
/**
 * The mock session: a credential list held in memory (seeded with two
 * accounts, grown by signups, never persisted), the current user, and the
 * user record mirrored to the key-value store.
 *
 * The simulated 800 ms delay is dropped; `Date.now()` becomes the parameter
 * `now`, rendered in decimal as JavaScript's string concatenation does.
 */
module Auth {

  import opened Wrappers
  import opened Json
  import opened Seqs

  const AUTH_STORAGE_KEY: string := "promptly_user"
  const ADMIN_EMAIL: string := "admin@promptly.kr"
  const ADMIN_ID: string := "admin-1"

  datatype Role = UserRole | AdminRole

  function RoleName(r: Role): string {
    match r
    case UserRole => "user"
    case AdminRole => "admin"
  }

  function RoleFromName(name: string): (r: Option<Role>)
    ensures r.Some? ==> RoleName(r.value) == name
    ensures forall role: Role :: name == RoleName(role) ==> r == Some(role)
  {
    if name == "user" then Some(UserRole)
    else if name == "admin" then Some(AdminRole)
    else None
  }

  /** The signed-in user; no password is kept here. */
  datatype User = User(id: string, nickname: string, email: string, role: Role)

  /** An entry of the in-memory credential list. */
  datatype Credential = Credential(email: string, password: string, nickname: string, role: Role)

  /** The credential list the session starts with. */
  const STORED_USERS: seq<Credential> := [
    Credential("admin@promptly.kr", "admin1234", "관리자", AdminRole),
    Credential("user@promptly.kr", "user1234", "프롬프트마스터", UserRole)
  ]

  /** The current user, the credential list and the key-value store. */
  datatype Session = Session(user: Option<User>, credentials: seq<Credential>, store: Store)

  datatype AuthError = InvalidCredentials | EmailTaken

  datatype AuthResult = Ok | Failed(error: AuthError)

  /** A transition's new session and what it reports to the caller. */
  datatype Step = Step(session: Session, result: AuthResult)

  // ----- generated ids -----

  function Digit(d: nat): (c: char)
    requires d < 10
    ensures '0' <= c <= '9'
  {
    "0123456789"[d]
  }

  /** The decimal digits of `n`, as `"" + n` renders a non-negative integer. */
  function DecimalString(n: nat): (r: string)
    ensures |r| >= 1
    ensures forall i :: 0 <= i < |r| ==> '0' <= r[i] <= '9'
    ensures r[0] == '0' ==> n == 0
    decreases n
  {
    if n < 10 then [Digit(n)] else DecimalString(n / 10) + [Digit(n % 10)]
  }

  /** The number a string of decimal digits denotes. */
  function DecimalValue(s: string): nat
    requires forall i :: 0 <= i < |s| ==> '0' <= s[i] <= '9'
    decreases |s|
  {
    if |s| == 0 then 0
    else DecimalValue(s[..|s| - 1]) * 10 + ((s[|s| - 1] as int) - ('0' as int))
  }

  /** The rendered timestamp denotes the timestamp, so distinct times give
   *  distinct ids. */
  lemma {:induction false} DecimalRoundTrip(n: nat)
    ensures DecimalValue(DecimalString(n)) == n
    decreases n
  {
    var r := DecimalString(n);
    if n < 10 {
      DigitValue(n);
      assert r[..0] == [];
    } else {
      var q := DecimalString(n / 10);
      assert r == q + [Digit(n % 10)];
      assert r[..|r| - 1] == q;
      DecimalRoundTrip(n / 10);
      DigitValue(n % 10);
      assert DecimalValue(r) == (n / 10) * 10 + n % 10;
    }
  }

  lemma DigitValue(d: nat)
    requires d < 10
    ensures (Digit(d) as int) - ('0' as int) == d
  {
  }

  /** The id a signup or a non-admin login assigns. */
  function GeneratedId(now: nat): (id: string)
    ensures |id| > 5 && id[..5] == "user-"
    ensures forall i :: 5 <= i < |id| ==> '0' <= id[i] <= '9'
    ensures DecimalValue(id[5..]) == now
    ensures id != ADMIN_ID
  {
    var id := "user-" + DecimalString(now);
    assert id[0] == 'u' && ADMIN_ID[0] == 'a';
    assert id[5..] == DecimalString(now);
    DecimalRoundTrip(now);
    id
  }

  // ----- the stored user record -----

  function EncodeUser(u: User): JVal {
    JObj(map[
      "id" := JStr(u.id),
      "nickname" := JStr(u.nickname),
      "email" := JStr(u.email),
      "role" := JStr(RoleName(u.role))
    ])
  }

  function DecodeUser(j: JVal): (r: Option<User>)
    ensures r.Some? ==> j.JObj? && StrField(j.fields, "email") == Some(r.value.email)
  {
    if !j.JObj? then None
    else
      var id :- StrField(j.fields, "id");
      var nickname :- StrField(j.fields, "nickname");
      var email :- StrField(j.fields, "email");
      var roleName :- StrField(j.fields, "role");
      var role :- RoleFromName(roleName);
      Some(User(id, nickname, email, role))
  }

  lemma UserRoundTrip(u: User)
    ensures DecodeUser(EncodeUser(u)) == Some(u)
  {
    assert RoleFromName(RoleName(u.role)) == Some(u.role);
  }

  /** `u?.email` is truthy. */
  predicate HasTruthyEmail(j: JVal) {
    j.JObj? && "email" in j.fields && Truthy(j.fields["email"])
  }

  /** `loadStoredUser`: a stored record is restored only when it parses and
   *  its email is non-empty; anything else reads as signed out. */
  function LoadStoredUser(store: Store): (r: Option<User>)
    ensures r.Some? ==> r.value.email != ""
    ensures AUTH_STORAGE_KEY !in store ==> r.None?
    ensures AUTH_STORAGE_KEY in store && !store[AUTH_STORAGE_KEY].Parsed? ==> r.None?
    ensures AUTH_STORAGE_KEY in store && store[AUTH_STORAGE_KEY].Parsed? ==>
              if HasTruthyEmail(store[AUTH_STORAGE_KEY].value)
              then r == DecodeUser(store[AUTH_STORAGE_KEY].value)
              else r.None?
  {
    match Get(store, AUTH_STORAGE_KEY)
    case None => None
    case Some(EmptyText) => None
    case Some(Malformed) => None
    case Some(Parsed(j)) => if HasTruthyEmail(j) then DecodeUser(j) else None
  }

  /** `saveUser`: a user is written under the key, no user removes it. */
  function SaveUser(store: Store, user: Option<User>): (r: Store)
    ensures user.None? ==> AUTH_STORAGE_KEY !in r
    ensures user.Some? ==> LoadStoredUser(r) == (if user.value.email == "" then None else user)
    ensures r - {AUTH_STORAGE_KEY} == store - {AUTH_STORAGE_KEY}
  {
    if user.Some? then
      UserRoundTrip(user.value);
      Put(store, AUTH_STORAGE_KEY, EncodeUser(user.value))
    else store - {AUTH_STORAGE_KEY}
  }

  /** Start-up: the stored record, if valid, is the current user. */
  function InitialSession(store: Store): (s: Session)
    ensures s.user == LoadStoredUser(store) && s.store == store
    ensures s.user.Some? ==> s.user.value.email != ""
    ensures s.credentials == STORED_USERS
  {
    Session(LoadStoredUser(store), STORED_USERS, store)
  }

  /** `isLoggedIn`. */
  predicate IsLoggedIn(s: Session) {
    s.user.Some?
  }

  // ----- transitions -----

  function Matches(email: string, password: string): Credential -> bool {
    (c: Credential) => c.email == email && c.password == password
  }

  function HasEmail(email: string): Credential -> bool {
    (c: Credential) => c.email == email
  }

  /** `login`: the first credential matching both email and password signs
   *  in; the admin account gets its fixed id, others a generated one. */
  function Login(s: Session, email: string, password: string, now: nat): (r: Step)
    ensures r.result.Ok? <==>
              exists i :: 0 <= i < |s.credentials| && s.credentials[i].email == email
                                                   && s.credentials[i].password == password
    ensures r.result.Failed? ==> r.result.error == InvalidCredentials && r.session == s
    ensures r.result.Ok? ==>
              && r.session.user.Some?
              && r.session.user.value.email == email
              && (r.session.user.value.id == ADMIN_ID <==> email == ADMIN_EMAIL)
              && (email != ADMIN_EMAIL ==> r.session.user.value.id == GeneratedId(now))
              && (exists i :: 0 <= i < |s.credentials| && s.credentials[i].email == email
                   && s.credentials[i].password == password
                   && s.credentials[i].nickname == r.session.user.value.nickname
                   && s.credentials[i].role == r.session.user.value.role
                   && forall j :: 0 <= j < i ==> !Matches(email, password)(s.credentials[j]))
              && LoadStoredUser(r.session.store) == (if email == "" then None else r.session.user)
    ensures r.session.credentials == s.credentials
    ensures r.session.store - {AUTH_STORAGE_KEY} == s.store - {AUTH_STORAGE_KEY}
  {
    match FindFirst(Matches(email, password), s.credentials)
    case None => Step(s, Failed(InvalidCredentials))
    case Some(found) =>
      var user := User(if found.email == ADMIN_EMAIL then ADMIN_ID else GeneratedId(now),
                       found.nickname, found.email, found.role);
      Step(Session(Some(user), s.credentials, SaveUser(s.store, Some(user))), Ok)
  }

  /** `signup`: a taken email is refused; otherwise a `user` credential is
   *  appended and the new user signed in. */
  function Signup(s: Session, nickname: string, email: string, password: string, now: nat): (r: Step)
    ensures r.result.Failed? <==> exists i :: 0 <= i < |s.credentials| && s.credentials[i].email == email
    ensures r.result.Failed? ==> r.result.error == EmailTaken && r.session == s
    ensures r.result.Ok? ==>
              && r.session.credentials == s.credentials + [Credential(email, password, nickname, UserRole)]
              && r.session.user == Some(User(GeneratedId(now), nickname, email, UserRole))
              && LoadStoredUser(r.session.store) == (if email == "" then None else r.session.user)
    ensures r.session.store - {AUTH_STORAGE_KEY} == s.store - {AUTH_STORAGE_KEY}
  {
    if FindFirst(HasEmail(email), s.credentials).Some? then Step(s, Failed(EmailTaken))
    else
      var user := User(GeneratedId(now), nickname, email, UserRole);
      Step(Session(Some(user), s.credentials + [Credential(email, password, nickname, UserRole)],
                   SaveUser(s.store, Some(user))),
           Ok)
  }

  /** `logout`: no user, and the stored record removed. */
  function Logout(s: Session): (r: Session)
    ensures !IsLoggedIn(r)
    ensures AUTH_STORAGE_KEY !in r.store && LoadStoredUser(r.store).None?
    ensures r.credentials == s.credentials
    ensures r.store - {AUTH_STORAGE_KEY} == s.store - {AUTH_STORAGE_KEY}
  {
    Session(None, s.credentials, SaveUser(s.store, None))
  }

  // ----- properties -----

  predicate DistinctEmails(credentials: seq<Credential>) {
    forall i, j :: 0 <= i < j < |credentials| ==> credentials[i].email != credentials[j].email
  }

  lemma SeedEmailsDistinct()
    ensures DistinctEmails(STORED_USERS)
  {
  }

  /** A signup keeps the credential emails distinct. */
  lemma SignupKeepsEmailsDistinct(s: Session, nickname: string, email: string, password: string, now: nat)
    requires DistinctEmails(s.credentials)
    ensures DistinctEmails(Signup(s, nickname, email, password, now).session.credentials)
  {
  }

  /** A signup request: nickname, email, password and the time it is made. */
  datatype SignupRequest = SignupRequest(nickname: string, email: string, password: string, now: nat)

  /** Runs signups one after another. */
  function SignupAll(s: Session, requests: seq<SignupRequest>): Session
    decreases |requests|
  {
    if |requests| == 0 then s
    else
      var q := requests[|requests| - 1];
      Signup(SignupAll(s, requests[..|requests| - 1]), q.nickname, q.email, q.password, q.now).session
  }

  /** From the seeded list, emails stay distinct across any run of signups. */
  lemma {:induction false} SignupsKeepEmailsDistinct(store: Store, requests: seq<SignupRequest>)
    ensures DistinctEmails(SignupAll(InitialSession(store), requests).credentials)
    decreases |requests|
  {
    if |requests| == 0 {
      SeedEmailsDistinct();
    } else {
      var q := requests[|requests| - 1];
      SignupsKeepEmailsDistinct(store, requests[..|requests| - 1]);
      SignupKeepsEmailsDistinct(SignupAll(InitialSession(store), requests[..|requests| - 1]),
                                q.nickname, q.email, q.password, q.now);
    }
  }

  /** A second signup with the same email is refused. */
  lemma SecondSignupRefused(s: Session, n1: string, n2: string, email: string,
                            p1: string, p2: string, t1: nat, t2: nat)
    requires Signup(s, n1, email, p1, t1).result.Ok?
    ensures Signup(Signup(s, n1, email, p1, t1).session, n2, email, p2, t2).result == Failed(EmailTaken)
  {
    var s1 := Signup(s, n1, email, p1, t1).session;
    assert s1.credentials[|s1.credentials| - 1].email == email;
  }

  /** Credentials created by a signup sign in, as a `user`. */
  lemma SignupThenLogin(s: Session, nickname: string, email: string, password: string, t1: nat, t2: nat)
    requires Signup(s, nickname, email, password, t1).result.Ok?
    ensures var r := Login(Signup(s, nickname, email, password, t1).session, email, password, t2);
            && r.result.Ok?
            && r.session.user.value.role == UserRole
            && r.session.user.value.nickname == nickname
  {
    var s1 := Signup(s, nickname, email, password, t1).session;
    var n := |s1.credentials| - 1;
    assert s1.credentials[n] == Credential(email, password, nickname, UserRole);
    var r := Login(s1, email, password, t2);
    var i :| 0 <= i < |s1.credentials| && s1.credentials[i].email == email
             && s1.credentials[i].password == password
             && s1.credentials[i].nickname == r.session.user.value.nickname
             && s1.credentials[i].role == r.session.user.value.role;
    assert i == n;
  }

  /** The seeded admin signs in as admin with the fixed id; a wrong password
   *  is refused and leaves the session signed out. */
  lemma AdminLogin(store: Store, now: nat)
    ensures var r := Login(InitialSession(store), "admin@promptly.kr", "admin1234", now);
            r.result.Ok? && r.session.user.value.role == AdminRole && r.session.user.value.id == ADMIN_ID
    ensures var r := Login(Session(None, STORED_USERS, store), "admin@promptly.kr", "wrong", now);
            r.result == Failed(InvalidCredentials) && !IsLoggedIn(r.session)
  {
    var r := Login(InitialSession(store), "admin@promptly.kr", "admin1234", now);
    assert STORED_USERS[0].email == "admin@promptly.kr" && STORED_USERS[0].password == "admin1234";
    var i :| 0 <= i < |STORED_USERS| && STORED_USERS[i].email == "admin@promptly.kr"
             && STORED_USERS[i].password == "admin1234"
             && STORED_USERS[i].role == r.session.user.value.role;
    assert i == 0;
  }
}

=== FILE: cart.dfy ===
/**
 * The shopping cart: a list of entries keyed by prompt id, mirrored to the
 * key-value store under one key after every change. Adding a prompt already
 * in the cart is silently ignored; removing filters out every entry with the
 * id; the count and total are derived from the list on every read.
 *
 * React's state holder is replaced by an explicit `CartState` (the list in
 * memory and the store), and `new Date().toISOString()` by a parameter.
 */
module Cart {

  import opened Wrappers
  import opened Json
  import opened Seqs
  import opened Catalog
  import opened PromptJson

  const CART_STORAGE_KEY: string := "promptly_cart"

  datatype CartItem = CartItem(prompt: Prompt, addedAt: string)

  /** The cart in memory and the key-value store it writes through to. */
  datatype CartState = CartState(items: seq<CartItem>, store: Store)

  // ----- derived values -----

  /** The prompt ids of the entries, in order. */
  function CartIds(items: seq<CartItem>): (r: seq<string>)
    ensures |r| == |items|
    ensures forall i :: 0 <= i < |items| ==> r[i] == items[i].prompt.id
  {
    seq(|items|, i requires 0 <= i < |items| => items[i].prompt.id)
  }

  /** The key of an entry. */
  function PromptIdOf(item: CartItem): string {
    PromptId(item.prompt)
  }

  /** The cart's invariant: no prompt id occurs twice. */
  predicate DistinctIds(items: seq<CartItem>) {
    DistinctBy(PromptIdOf, items)
  }

  lemma DistinctIdsAsNoDup(items: seq<CartItem>)
    ensures DistinctIds(items) <==> NoDup(CartIds(items))
  {
    if DistinctIds(items) {
      forall i, j | 0 <= i < j < |items| ensures CartIds(items)[i] != CartIds(items)[j] {
        assert PromptIdOf(items[i]) != PromptIdOf(items[j]);
      }
    }
    if NoDup(CartIds(items)) {
      forall i, j | 0 <= i < j < |items| ensures PromptIdOf(items[i]) != PromptIdOf(items[j]) {
        assert CartIds(items)[i] != CartIds(items)[j];
      }
    }
  }

  /** `isInCart`: some entry has the id. */
  predicate IsInCart(items: seq<CartItem>, promptId: string) {
    promptId in CartIds(items)
  }

  /** `itemCount`. */
  function ItemCount(items: seq<CartItem>): nat {
    |items|
  }

  /** `totalPrice`: the left-to-right sum of the entries' prices. */
  function TotalPrice(items: seq<CartItem>): (r: int)
    ensures (forall i :: 0 <= i < |items| ==> items[i].prompt.price >= 0) ==> r >= 0
    decreases |items|
  {
    if |items| == 0 then 0
    else TotalPrice(items[..|items| - 1]) + items[|items| - 1].prompt.price
  }

  /** `isInCart` holds exactly when some entry carries the id. */
  lemma IsInCartMeansSomeEntry(items: seq<CartItem>, promptId: string)
    ensures IsInCart(items, promptId) <==> exists i :: 0 <= i < |items| && items[i].prompt.id == promptId
  {
    if IsInCart(items, promptId) {
      var i :| 0 <= i < |items| && CartIds(items)[i] == promptId;
      assert items[i].prompt.id == promptId;
    }
  }

  // ----- persistence -----

  function EncodeItem(item: CartItem): JVal {
    JObj(map["prompt" := EncodePrompt(item.prompt), "addedAt" := JStr(item.addedAt)])
  }

  function DecodeItem(j: JVal): (r: Option<CartItem>)
    ensures r.Some? ==> j.JObj? && "prompt" in j.fields
                        && DecodePrompt(j.fields["prompt"]) == Some(r.value.prompt)
  {
    if !j.JObj? || "prompt" !in j.fields then None
    else
      var prompt :- DecodePrompt(j.fields["prompt"]);
      var addedAt :- StrField(j.fields, "addedAt");
      Some(CartItem(prompt, addedAt))
  }

  lemma ItemRoundTrip(item: CartItem)
    ensures DecodeItem(EncodeItem(item)) == Some(item)
  {
    PromptRoundTrip(item.prompt);
  }

  /** JSON.stringify of the entry list. */
  function EncodeCart(items: seq<CartItem>): JVal {
    JArr(Map(EncodeItem, items))
  }

  /** The typed reading of a parsed cart value: an array every element of
   *  which reads as an entry. */
  function DecodeCart(j: JVal): (r: Option<seq<CartItem>>)
    ensures r.Some? ==> j.JArr? && |r.value| == |j.elems|
    ensures r.Some? ==> forall i :: 0 <= i < |j.elems| ==> DecodeItem(j.elems[i]) == Some(r.value[i])
  {
    if j.JArr? then ReadAll(DecodeItem, j.elems) else None
  }

  /** A stored cart reads back as the cart that was stored. */
  lemma CartRoundTrip(items: seq<CartItem>)
    ensures DecodeCart(EncodeCart(items)) == Some(items)
  {
    forall i | 0 <= i < |items| ensures DecodeItem(EncodeItem(items[i])) == Some(items[i]) {
      ItemRoundTrip(items[i]);
    }
    ReadAllMap(EncodeItem, DecodeItem, items);
  }

  /** `loadStoredCart`: a missing, empty or unparsable entry loads as the
   *  empty cart. */
  function LoadStoredCart(store: Store): (r: seq<CartItem>)
    ensures CART_STORAGE_KEY !in store ==> r == []
    ensures CART_STORAGE_KEY in store && !store[CART_STORAGE_KEY].Parsed? ==> r == []
    ensures CART_STORAGE_KEY in store && store[CART_STORAGE_KEY].Parsed?
            && DecodeCart(store[CART_STORAGE_KEY].value).Some?
            ==> r == DecodeCart(store[CART_STORAGE_KEY].value).value
  {
    if CART_STORAGE_KEY !in store then []
    else
      match store[CART_STORAGE_KEY]
      case EmptyText => []
      case Malformed => []
      case Parsed(j) => DecodeCart(j).GetOr([])
  }

  /** `saveCart`: the entry list written under the cart key. */
  function SaveCart(store: Store, items: seq<CartItem>): (r: Store)
    ensures LoadStoredCart(r) == items
    ensures r - {CART_STORAGE_KEY} == store - {CART_STORAGE_KEY}
  {
    CartRoundTrip(items);
    Put(store, CART_STORAGE_KEY, EncodeCart(items))
  }

  /** The store holds exactly the list in memory. */
  predicate Persisted(s: CartState) {
    LoadStoredCart(s.store) == s.items
  }

  /** Start-up: the cart is whatever the store holds. */
  function InitialCart(store: Store): (s: CartState)
    ensures Persisted(s)
    ensures s.store == store
  {
    CartState(LoadStoredCart(store), store)
  }

  // ----- transitions -----

  /** Appending an entry appends its id. */
  lemma AppendIds(items: seq<CartItem>, item: CartItem)
    ensures CartIds(items + [item]) == CartIds(items) + [item.prompt.id]
    ensures (items + [item])[..|items|] == items
    ensures item.prompt.id !in CartIds(items) && DistinctIds(items) ==> DistinctIds(items + [item])
  {
    var next := items + [item];
    assert next[..|items|] == items;
    if item.prompt.id !in CartIds(items) && DistinctIds(items) {
      forall i, j | 0 <= i < j < |next|
        ensures PromptIdOf(next[i]) != PromptIdOf(next[j])
      {
        if j == |items| {
          assert CartIds(items)[i] == PromptIdOf(next[i]);
        }
      }
    }
  }

  /** `addToCart`: ignored when the id is already present, otherwise the
   *  entry is appended and the list written through. */
  function AddToCart(s: CartState, prompt: Prompt, now: string): (r: CartState)
    ensures IsInCart(r.items, prompt.id)
    ensures IsInCart(s.items, prompt.id) ==> r == s
    ensures !IsInCart(s.items, prompt.id) ==>
              && |r.items| == |s.items| + 1
              && r.items[..|s.items|] == s.items
              && r.items[|s.items|] == CartItem(prompt, now)
              && Persisted(r)
    ensures DistinctIds(s.items) ==> DistinctIds(r.items)
    ensures r.store - {CART_STORAGE_KEY} == s.store - {CART_STORAGE_KEY}
  {
    if IsInCart(s.items, prompt.id) then s
    else
      var next := s.items + [CartItem(prompt, now)];
      AppendIds(s.items, CartItem(prompt, now));
      CartState(next, SaveCart(s.store, next))
  }

  /** Keeps the entries whose prompt id is not `promptId`. */
  function OtherThan(promptId: string): CartItem -> bool {
    (item: CartItem) => item.prompt.id != promptId
  }

  /** `removeFromCart`: every entry with the id is dropped, the rest keep
   *  their order, and the list is written through. */
  function RemoveFromCart(s: CartState, promptId: string): (r: CartState)
    ensures !IsInCart(r.items, promptId)
    ensures forall i :: 0 <= i < |s.items| && s.items[i].prompt.id != promptId ==> s.items[i] in r.items
    ensures forall i :: 0 <= i < |r.items| ==> r.items[i] in s.items
    ensures IsSubsequence(r.items, s.items)
    ensures !IsInCart(s.items, promptId) ==> r.items == s.items
    ensures DistinctIds(s.items) ==> DistinctIds(r.items)
    ensures Persisted(r)
    ensures r.store - {CART_STORAGE_KEY} == s.store - {CART_STORAGE_KEY}
  {
    var next := Filter(OtherThan(promptId), s.items);
    RemoveIds(s.items, promptId);
    FilterIsSubsequence(OtherThan(promptId), s.items);
    CartState(next, SaveCart(s.store, next))
  }

  /** `clearCart`: the empty list, written through. */
  function ClearCart(s: CartState): (r: CartState)
    ensures r.items == [] && ItemCount(r.items) == 0 && TotalPrice(r.items) == 0
    ensures Persisted(r)
    ensures DistinctIds(r.items)
    ensures r.store - {CART_STORAGE_KEY} == s.store - {CART_STORAGE_KEY}
  {
    CartState([], SaveCart(s.store, []))
  }

  // ----- properties -----

  /** What filtering out an id does to the ids: it is gone afterwards, the
   *  list is untouched when it was absent, and distinct ids stay distinct. */
  lemma RemoveIds(items: seq<CartItem>, promptId: string)
    ensures !IsInCart(Filter(OtherThan(promptId), items), promptId)
    ensures !IsInCart(items, promptId) ==> Filter(OtherThan(promptId), items) == items
    ensures DistinctIds(items) ==> DistinctIds(Filter(OtherThan(promptId), items))
  {
    var f := OtherThan(promptId);
    var r := Filter(f, items);
    forall i | 0 <= i < |r| ensures CartIds(r)[i] != promptId {
      assert f(r[i]);
    }
    if !IsInCart(items, promptId) {
      forall i | 0 <= i < |items| ensures f(items[i]) {
        assert CartIds(items)[i] == items[i].prompt.id;
      }
    }
    if DistinctIds(items) {
      FilterKeepsDistinctBy(PromptIdOf, f, items);
    }
  }

  /** The total of a concatenation is the sum of the totals. */
  lemma {:induction false} TotalPriceAppend(a: seq<CartItem>, b: seq<CartItem>)
    ensures TotalPrice(a + b) == TotalPrice(a) + TotalPrice(b)
    decreases |b|
  {
    if |b| == 0 {
      assert a + b == a;
    } else {
      var b' := b[..|b| - 1];
      assert (a + b)[..|a + b| - 1] == a + b';
      TotalPriceAppend(a, b');
    }
  }

  /** A successful add raises the count by one and the total by the price. */
  lemma AddRaisesTotals(s: CartState, prompt: Prompt, now: string)
    requires !IsInCart(s.items, prompt.id)
    ensures ItemCount(AddToCart(s, prompt, now).items) == ItemCount(s.items) + 1
    ensures TotalPrice(AddToCart(s, prompt, now).items) == TotalPrice(s.items) + prompt.price
  {
    var r := AddToCart(s, prompt, now);
    assert r.items == s.items + [CartItem(prompt, now)];
    assert r.items[..|r.items| - 1] == s.items;
  }

  /** Adding a prompt twice is the same as adding it once. */
  lemma AddIdempotent(s: CartState, prompt: Prompt, t1: string, t2: string)
    ensures AddToCart(AddToCart(s, prompt, t1), prompt, t2) == AddToCart(s, prompt, t1)
  {
  }

  /** Adding an absent prompt and removing its id restores the list. */
  lemma AddThenRemove(s: CartState, prompt: Prompt, now: string)
    requires !IsInCart(s.items, prompt.id)
    ensures RemoveFromCart(AddToCart(s, prompt, now), prompt.id).items == s.items
  {
    var f := OtherThan(prompt.id);
    assert AddToCart(s, prompt, now).items == s.items + [CartItem(prompt, now)];
    assert forall i :: 0 <= i < |s.items| ==> f(s.items[i]) by {
      forall i | 0 <= i < |s.items| ensures f(s.items[i]) {
        assert CartIds(s.items)[i] == s.items[i].prompt.id;
      }
    }
    FilterDropsRejectedLast(f, s.items, CartItem(prompt, now));
  }

  /** In a duplicate-free cart, removing the id of the entry at `k` drops
   *  exactly that entry. */
  lemma RemoveDropsOneEntry(items: seq<CartItem>, k: nat)
    requires DistinctIds(items)
    requires k < |items|
    ensures Filter(OtherThan(items[k].prompt.id), items) == items[..k] + items[k + 1..]
  {
    var f := OtherThan(items[k].prompt.id);
    forall i | 0 <= i < |items| && i != k
      ensures f(items[i])
    {
      if i < k {
        assert PromptIdOf(items[i]) != PromptIdOf(items[k]);
      } else {
        assert PromptIdOf(items[k]) != PromptIdOf(items[i]);
      }
    }
    FilterRemovesOne(f, items, k);
  }

  /** Removing the entry at `k` of a duplicate-free cart lowers the count by
   *  one and the total by that entry's price. */
  lemma RemoveLowersTotals(s: CartState, k: nat)
    requires DistinctIds(s.items)
    requires k < |s.items|
    ensures RemoveFromCart(s, s.items[k].prompt.id).items == s.items[..k] + s.items[k + 1..]
    ensures ItemCount(RemoveFromCart(s, s.items[k].prompt.id).items) == ItemCount(s.items) - 1
    ensures TotalPrice(RemoveFromCart(s, s.items[k].prompt.id).items)
            == TotalPrice(s.items) - s.items[k].prompt.price
  {
    RemoveDropsOneEntry(s.items, k);
    TotalPriceRemoveAt(s.items, k);
  }

  /** Dropping the entry at `k` lowers the total by its price. */
  lemma TotalPriceRemoveAt(items: seq<CartItem>, k: nat)
    requires k < |items|
    ensures TotalPrice(items[..k] + items[k + 1..]) == TotalPrice(items) - items[k].prompt.price
  {
    var before, at, after := items[..k], [items[k]], items[k + 1..];
    SplitAt(items, k);
    TotalPriceAppend(before + at, after);
    TotalPriceAppend(before, at);
    TotalPriceAppend(before, after);
    assert TotalPrice(at) == items[k].prompt.price by {
      assert at[..0] == [];
    }
  }

  /** Adds prompts one after another, as successive `addToCart` calls. */
  function AddAll(s: CartState, prompts: seq<Prompt>, now: string): CartState
    decreases |prompts|
  {
    if |prompts| == 0 then s
    else AddToCart(AddAll(s, prompts[..|prompts| - 1], now), prompts[|prompts| - 1], now)
  }

  /** After a run of adds, the cart's ids are the ids seen so far, each once,
   *  in order of first addition. */
  lemma {:induction false} AddAllIds(s: CartState, prompts: seq<Prompt>, now: string)
    requires DistinctIds(s.items)
    ensures CartIds(AddAll(s, prompts, now).items) == Dedup(CartIds(s.items) + Ids(prompts))
    decreases |prompts|
  {
    if |prompts| == 0 {
      assert CartIds(s.items) + Ids(prompts) == CartIds(s.items);
      DistinctIdsAsNoDup(s.items);
    } else {
      var init := prompts[..|prompts| - 1];
      var p := prompts[|prompts| - 1];
      AddAllIds(s, init, now);
      var seen := CartIds(s.items) + Ids(init);
      AddDedupStep(AddAll(s, init, now), p, now, seen);
      SeenSnoc(CartIds(s.items), prompts);
    }
  }

  /** The ids seen after one more prompt. */
  lemma SeenSnoc(ids: seq<string>, prompts: seq<Prompt>)
    requires |prompts| > 0
    ensures ids + Ids(prompts) == (ids + Ids(prompts[..|prompts| - 1])) + [prompts[|prompts| - 1].id]
  {
    IdsSnoc(prompts);
  }

  /** If the ids so far are `Dedup(seen)`, one more add makes them
   *  `Dedup(seen + [prompt.id])`. */
  lemma AddDedupStep(s: CartState, prompt: Prompt, now: string, seen: seq<string>)
    requires CartIds(s.items) == Dedup(seen)
    ensures CartIds(AddToCart(s, prompt, now).items) == Dedup(seen + [prompt.id])
  {
    DedupSnoc(seen, prompt.id);
    assert prompt.id in CartIds(s.items) <==> prompt.id in seen;
    AddIdsStep(s, prompt, now);
  }

  /** One add extends the id list by the new id, or leaves it alone. */
  lemma AddIdsStep(s: CartState, prompt: Prompt, now: string)
    ensures CartIds(AddToCart(s, prompt, now).items)
            == if prompt.id in CartIds(s.items) then CartIds(s.items) else CartIds(s.items) + [prompt.id]
  {
    if prompt.id !in CartIds(s.items) {
      AppendIds(s.items, CartItem(prompt, now));
    }
  }

  /** Adding prompts with distinct ids to an empty cart holds one entry per prompt. */
  lemma AddDistinctCount(s: CartState, prompts: seq<Prompt>, now: string)
    requires s.items == []
    requires NoDup(Ids(prompts))
    ensures ItemCount(AddAll(s, prompts, now).items) == |prompts|
    ensures CartIds(AddAll(s, prompts, now).items) == Ids(prompts)
  {
    AddAllIds(s, prompts, now);
    assert CartIds(s.items) + Ids(prompts) == Ids(prompts);
  }
}

=== FILE: catalog.dfy ===
/**
 * The static catalogue: the AI-model tags, the prompt record the rest of the
 * client-state layer uses, the eight listed prompts, and the dashboard tables
 * (a buyer's purchases, a seller's sales, the admin's monthly revenue) with
 * the platform's settlement rule: a 20% platform fee, the rest paid out to
 * sellers.
 */
module Catalog {

  import opened Wrappers
  import opened Seqs

  /** The AI models a prompt can target. */
  datatype AIModel = ChatGPT | Midjourney | DallE | StableDiffusion | Claude | Gemini

  /** The tag under which a model is written in stored and displayed data. */
  function ModelName(m: AIModel): string {
    match m
    case ChatGPT => "ChatGPT"
    case Midjourney => "Midjourney"
    case DallE => "DALL-E"
    case StableDiffusion => "Stable Diffusion"
    case Claude => "Claude"
    case Gemini => "Gemini"
  }

  /** Reading a tag back: only the six tags name a model. */
  function ModelFromName(name: string): (r: Option<AIModel>)
    ensures r.Some? ==> ModelName(r.value) == name
  {
    if name == "ChatGPT" then Some(ChatGPT)
    else if name == "Midjourney" then Some(Midjourney)
    else if name == "DALL-E" then Some(DallE)
    else if name == "Stable Diffusion" then Some(StableDiffusion)
    else if name == "Claude" then Some(Claude)
    else if name == "Gemini" then Some(Gemini)
    else None
  }

  /** Every model's tag reads back as that model, so tags are distinct. */
  lemma ModelNameRoundTrip(m: AIModel)
    ensures ModelFromName(ModelName(m)) == Some(m)
  {
  }

  /** A listed prompt. Prices and sales counts are whole won amounts and
   *  counts; `content` and `fullDescription` are optional. */
  datatype Prompt = Prompt(
    id: string,
    title: string,
    description: string,
    model: AIModel,
    price: int,
    thumbnailUrl: string,
    sellerName: string,
    sellerAvatar: string,
    salesCount: int,
    createdAt: string,
    content: Option<string>,
    fullDescription: Option<string>)

  /** The model filter's buttons, in display order. */
  const AI_MODELS: seq<AIModel> :=
    [ChatGPT, Midjourney, DallE, StableDiffusion, Claude, Gemini]

  /** A catalogue entry; the long-form texts are not carried (see README). */
  function Listed(id: string, title: string, description: string, model: AIModel,
                  price: int, sellerName: string, salesCount: int, createdAt: string): Prompt
  {
    Prompt(id, title, description, model, price, "", sellerName, "", salesCount, createdAt, None, None)
  }

  const PROMPTS: seq<Prompt> := [
    Listed("1", "블로그 글 자동 생성 프롬프트",
           "SEO 최적화된 블로그 글을 자동으로 생성하는 프롬프트입니다. 주제만 입력하면 완벽한 구조의 글이 생성됩니다.",
           ChatGPT, 5900, "프롬프트마스터", 342, "2026-01-15"),
    Listed("2", "시네마틱 풍경 사진 생성",
           "영화 같은 분위기의 풍경 이미지를 생성하는 Midjourney 프롬프트입니다.",
           Midjourney, 8900, "AI아티스트", 567, "2026-01-20"),
    Listed("3", "마케팅 카피라이팅 마스터",
           "설득력 있는 마케팅 카피를 자동으로 생성합니다. 제품/서비스에 맞는 최적의 카피를 제안합니다.",
           ChatGPT, 12900, "카피장인", 891, "2026-01-25"),
    Listed("4", "제품 사진 리터칭 프롬프트",
           "상품 사진을 프로페셔널하게 편집하는 DALL-E 프롬프트입니다.",
           DallE, 6900, "디자인프로", 234, "2026-02-01"),
    Listed("5", "AI 코드 리뷰어 프롬프트",
           "시니어 개발자처럼 코드를 리뷰해주는 프롬프트입니다. 버그, 성능, 보안 이슈를 탐지합니다.",
           Claude, 9900, "개발의신", 456, "2026-02-05"),
    Listed("6", "판타지 캐릭터 일러스트",
           "게임이나 소설에 사용할 수 있는 고퀄리티 판타지 캐릭터를 생성합니다.",
           StableDiffusion, 7900, "아트마법사", 678, "2026-02-10"),
    Listed("7", "비즈니스 이메일 자동 작성",
           "상황에 맞는 비즈니스 이메일을 전문적으로 작성해주는 프롬프트입니다.",
           Gemini, 4900, "비즈니스헬퍼", 345, "2026-02-12"),
    Listed("8", "인스타그램 피드 디자인",
           "통일감 있는 인스타그램 피드 이미지를 생성하는 프롬프트입니다.",
           Midjourney, 11900, "SNS마스터", 789, "2026-02-15")
  ]

  /** A prompt's key. */
  function PromptId(p: Prompt): string {
    p.id
  }

  /** The ids of a list of prompts, in order. */
  function Ids(ps: seq<Prompt>): (r: seq<string>)
    ensures |r| == |ps|
    ensures forall i :: 0 <= i < |ps| ==> r[i] == ps[i].id
  {
    seq(|ps|, i requires 0 <= i < |ps| => ps[i].id)
  }

  lemma IdsSnoc(ps: seq<Prompt>)
    requires |ps| > 0
    ensures Ids(ps) == Ids(ps[..|ps| - 1]) + [ps[|ps| - 1].id]
  {
  }

  /** The catalogue entry with the given id, as `PROMPTS.find` returns it. */
  function PromptById(ps: seq<Prompt>, id: string): (r: Option<Prompt>)
    ensures r.Some? ==> r.value in ps && r.value.id == id
    ensures r.None? <==> id !in Ids(ps)
  {
    FindFirst((p: Prompt) => p.id == id, ps)
  }

  datatype Purchase = Purchase(id: string, promptId: string, promptTitle: string,
                               purchasedAt: string, price: int)

  /** A seller's sales of one prompt. `totalRevenue` is an exact rational
   *  here; the source computes it in floating point. */
  datatype Sale = Sale(id: string, promptId: string, promptTitle: string,
                       salesCount: int, totalRevenue: real)

  /** One month of the admin revenue summary. */
  datatype MonthlyRevenue = MonthlyRevenue(yearMonth: string, totalSalesAmount: int,
                                           platformFee: int, sellerPayout: int, orderCount: int)

  const MY_PURCHASES: seq<Purchase> := [
    Purchase("p1", "1", "블로그 글 자동 생성 프롬프트", "2026-02-10", 5900),
    Purchase("p2", "2", "시네마틱 풍경 사진 생성", "2026-02-12", 8900),
    Purchase("p3", "5", "AI 코드 리뷰어 프롬프트", "2026-02-18", 9900)
  ]

  /** The seller keeps 80% of the gross: `salesCount * price * 0.8`. */
  function SellerRevenue(salesCount: int, price: int): (r: real)
    ensures r + (salesCount * price) as real / 5.0 == (salesCount * price) as real
  {
    salesCount as real * price as real * 0.8
  }

  const MY_SALES: seq<Sale> := [
    Sale("s1", "3", "마케팅 카피라이팅 마스터", 891, SellerRevenue(891, 12900)),
    Sale("s2", "7", "비즈니스 이메일 자동 작성", 345, SellerRevenue(345, 4900))
  ]

  const ADMIN_MONTHLY_REVENUE: seq<MonthlyRevenue> := [
    MonthlyRevenue("2026-02", 12_450_000, 2_490_000, 9_960_000, 342),
    MonthlyRevenue("2026-01", 18_320_000, 3_664_000, 14_656_000, 521),
    MonthlyRevenue("2025-12", 15_100_000, 3_020_000, 12_080_000, 418),
    MonthlyRevenue("2025-11", 9_800_000, 1_960_000, 7_840_000, 276),
    MonthlyRevenue("2025-10", 7_200_000, 1_440_000, 5_760_000, 198)
  ]

  /** The settlement rule: the fee is exactly a fifth (20%) of the gross and
   *  the payout is what remains. */
  predicate FollowsFeeRule(row: MonthlyRevenue) {
    && 5 * row.platformFee == row.totalSalesAmount
    && row.sellerPayout == row.totalSalesAmount - row.platformFee
  }

  /** The settlement of a gross amount divisible into fifths. */
  function Settle(yearMonth: string, totalSalesAmount: int, orderCount: int): (r: MonthlyRevenue)
    requires totalSalesAmount % 5 == 0
    ensures FollowsFeeRule(r)
    ensures r.sellerPayout + r.platformFee == r.totalSalesAmount
    ensures r.totalSalesAmount == totalSalesAmount && r.yearMonth == yearMonth
    ensures r.orderCount == orderCount
  {
    var fee := totalSalesAmount / 5;
    MonthlyRevenue(yearMonth, totalSalesAmount, fee, totalSalesAmount - fee, orderCount)
  }

  /** Every row of the admin table is the settlement of its gross amount. */
  lemma AdminRevenueFollowsFeeRule()
    ensures forall i :: 0 <= i < |ADMIN_MONTHLY_REVENUE| ==> FollowsFeeRule(ADMIN_MONTHLY_REVENUE[i])
    ensures forall i :: 0 <= i < |ADMIN_MONTHLY_REVENUE| ==>
      ADMIN_MONTHLY_REVENUE[i].sellerPayout + ADMIN_MONTHLY_REVENUE[i].platformFee
        == ADMIN_MONTHLY_REVENUE[i].totalSalesAmount
    ensures forall i :: 0 <= i < |ADMIN_MONTHLY_REVENUE| ==>
      && ADMIN_MONTHLY_REVENUE[i].totalSalesAmount % 5 == 0
      && ADMIN_MONTHLY_REVENUE[i] == Settle(ADMIN_MONTHLY_REVENUE[i].yearMonth,
                                            ADMIN_MONTHLY_REVENUE[i].totalSalesAmount,
                                            ADMIN_MONTHLY_REVENUE[i].orderCount)
  {
    forall i | 0 <= i < |ADMIN_MONTHLY_REVENUE|
      ensures ADMIN_MONTHLY_REVENUE[i].totalSalesAmount % 5 == 0
      ensures ADMIN_MONTHLY_REVENUE[i] == Settle(ADMIN_MONTHLY_REVENUE[i].yearMonth,
                                                 ADMIN_MONTHLY_REVENUE[i].totalSalesAmount,
                                                 ADMIN_MONTHLY_REVENUE[i].orderCount)
    {
    }
  }

  /** The catalogue's ids are pairwise distinct. */
  lemma PromptIdsDistinct()
    ensures NoDup(Ids(PROMPTS))
  {
  }

  /** Prices and sales counts in the catalogue are non-negative integers. */
  lemma PromptAmountsNonNegative()
    ensures forall i :: 0 <= i < |PROMPTS| ==> PROMPTS[i].price >= 0 && PROMPTS[i].salesCount >= 0
  {
  }

  /** With distinct ids, looking an entry's id up finds that entry. */
  lemma {:induction false} PromptByIdFindsEntry(ps: seq<Prompt>, j: nat)
    requires NoDup(Ids(ps))
    requires j < |ps|
    ensures PromptById(ps, ps[j].id) == Some(ps[j])
  {
    var r := PromptById(ps, ps[j].id);
    assert Ids(ps)[j] == ps[j].id;
    var k :| 0 <= k < |ps| && ps[k] == r.value && ps[k].id == ps[j].id
             && forall i :: 0 <= i < k ==> ps[i].id != ps[j].id;
    assert Ids(ps)[k] == Ids(ps)[j];
  }

  /** A sale agrees with the catalogue entry it names: same title and sales
   *  count, and revenue the seller's 80% of that entry's gross. */
  predicate SaleMatches(sale: Sale, ps: seq<Prompt>) {
    var p := PromptById(ps, sale.promptId);
    && p.Some?
    && sale.promptTitle == p.value.title
    && sale.salesCount == p.value.salesCount
    && sale.totalRevenue == SellerRevenue(p.value.salesCount, p.value.price)
  }

  /** A purchase repeats the title and price of the catalogue entry it names. */
  predicate PurchaseMatches(purchase: Purchase, ps: seq<Prompt>) {
    var p := PromptById(ps, purchase.promptId);
    && p.Some?
    && purchase.promptTitle == p.value.title
    && purchase.price == p.value.price
  }

  /** A row agrees with the catalogue when the entry its id names is `ps[j]`. */
  lemma {:induction false} EntryNamedBy(ps: seq<Prompt>, j: nat, id: string)
    requires NoDup(Ids(ps))
    requires j < |ps| && ps[j].id == id
    ensures PromptById(ps, id) == Some(ps[j])
  {
    PromptByIdFindsEntry(ps, j);
  }

  /** One row of the sales table agrees with the catalogue. */
  lemma SaleRowMatches(i: nat)
    requires i < |MY_SALES|
    ensures SaleMatches(MY_SALES[i], PROMPTS)
  {
    var j := if i == 0 then 2 else 6;
    assert PROMPTS[j].id == MY_SALES[i].promptId;
    PromptIdsDistinct();
    EntryNamedBy(PROMPTS, j, MY_SALES[i].promptId);
  }

  lemma SalesMatchCatalogue()
    ensures forall i :: 0 <= i < |MY_SALES| ==> SaleMatches(MY_SALES[i], PROMPTS)
  {
    forall i | 0 <= i < |MY_SALES|
      ensures SaleMatches(MY_SALES[i], PROMPTS)
    {
      SaleRowMatches(i);
    }
  }

  /** One row of the purchase table agrees with the catalogue. */
  lemma PurchaseRowMatches(i: nat)
    requires i < |MY_PURCHASES|
    ensures PurchaseMatches(MY_PURCHASES[i], PROMPTS)
  {
    var j := if i == 0 then 0 else if i == 1 then 1 else 4;
    assert PROMPTS[j].id == MY_PURCHASES[i].promptId;
    PromptIdsDistinct();
    EntryNamedBy(PROMPTS, j, MY_PURCHASES[i].promptId);
  }

  /** Each purchase repeats the title and price of the catalogue entry it names. */
  lemma PurchasesMatchCatalogue()
    ensures forall i :: 0 <= i < |MY_PURCHASES| ==> PurchaseMatches(MY_PURCHASES[i], PROMPTS)
  {
    forall i | 0 <= i < |MY_PURCHASES|
      ensures PurchaseMatches(MY_PURCHASES[i], PROMPTS)
    {
      PurchaseRowMatches(i);
    }
  }

  /** The filter buttons list every model exactly once. */
  lemma AIModelsListEachModelOnce()
    ensures NoDup(AI_MODELS)
    ensures forall m: AIModel :: m in AI_MODELS
  {
    forall m: AIModel
      ensures m in AI_MODELS
    {
      match m
      case ChatGPT => assert AI_MODELS[0] == m;
      case Midjourney => assert AI_MODELS[1] == m;
      case DallE => assert AI_MODELS[2] == m;
      case StableDiffusion => assert AI_MODELS[3] == m;
      case Claude => assert AI_MODELS[4] == m;
      case Gemini => assert AI_MODELS[5] == m;
    }
  }
}

=== FILE: home_grid.dfy ===
/**
 * The home page's prompt grid: a model filter whose "all" button clears the
 * selection and whose other buttons select one AI model; the grid lists the
 * catalogue entries of the selected model, in catalogue order.
 */
module HomeGrid {

  import opened Wrappers
  import opened Seqs
  import opened Catalog

  function OfModel(m: AIModel): Prompt -> bool {
    (p: Prompt) => p.model == m
  }

  /** The grid's contents for a selection; no selection lists everything. */
  function FilterByModel(ps: seq<Prompt>, selected: Option<AIModel>): (r: seq<Prompt>)
    ensures selected.None? ==> r == ps
    ensures selected.Some? ==> forall i :: 0 <= i < |r| ==> r[i].model == selected.value
    ensures selected.Some? ==> forall i :: 0 <= i < |ps| && ps[i].model == selected.value ==> ps[i] in r
    ensures forall i :: 0 <= i < |r| ==> r[i] in ps
  {
    match selected
    case None => ps
    case Some(m) => Filter(OfModel(m), ps)
  }

  /** What the grid shows on the home page. */
  function PromptGrid(selected: Option<AIModel>): seq<Prompt> {
    FilterByModel(PROMPTS, selected)
  }

  /** The grid keeps catalogue order. */
  lemma GridKeepsOrder(ps: seq<Prompt>, selected: Option<AIModel>)
    ensures IsSubsequence(FilterByModel(ps, selected), ps)
  {
    match selected {
      case None =>
        SubsequenceReflexive(ps);
      case Some(m) =>
        FilterIsSubsequence(OfModel(m), ps);
    }
  }

  /** Selecting the same model twice shows the same grid. */
  lemma FilterIdempotent(ps: seq<Prompt>, selected: Option<AIModel>)
    ensures FilterByModel(FilterByModel(ps, selected), selected) == FilterByModel(ps, selected)
  {
  }

  /** Every entry of the catalogue is shown under exactly the selection of its
   *  own model (and under "all"). */
  lemma ShownUnderOwnModel(ps: seq<Prompt>, i: nat, m: AIModel)
    requires i < |ps|
    ensures ps[i] in FilterByModel(ps, None)
    ensures ps[i] in FilterByModel(ps, Some(m)) <==> ps[i].model == m
  {
    if ps[i] in FilterByModel(ps, Some(m)) {
      var r := FilterByModel(ps, Some(m));
      var k :| 0 <= k < |r| && r[k] == ps[i];
    }
  }

  /** Entries with distinct ids stay distinct in the grid. */
  lemma GridIdsDistinct(selected: Option<AIModel>)
    ensures DistinctBy(PromptId, PromptGrid(selected))
  {
    PromptIdsDistinct();
    assert DistinctBy(PromptId, PROMPTS) by {
      forall i, j | 0 <= i < j < |PROMPTS| ensures PromptId(PROMPTS[i]) != PromptId(PROMPTS[j]) {
        assert Ids(PROMPTS)[i] == PROMPTS[i].id && Ids(PROMPTS)[j] == PROMPTS[j].id;
      }
    }
    if selected.Some? {
      FilterKeepsDistinctBy(PromptId, OfModel(selected.value), PROMPTS);
    }
  }
}

=== FILE: json.dfy ===
/**
 * Parsed JSON values and the browser's string-keyed key-value store.
 *
 * The store holds strings; every reader of it passes the string through
 * JSON.parse. The model keeps, for every key, only what that parse yields:
 * the empty string (which every reader rejects before parsing), a text that
 * does not parse, or a parsed value. A write of JSON.stringify(v) is stored
 * as `Parsed(v)`, so stringify followed by parse is the identity on the
 * values the model writes (integers, strings, arrays and plain objects).
 */
module Json {

  import opened Wrappers

  /** A parsed JSON value. Objects are maps: JSON.parse keeps the last of
   *  duplicated keys, so a parsed object is a finite map from keys. */
  datatype JVal =
    | JNull
    | JBool(b: bool)
    | JNum(n: int)
    | JStr(s: string)
    | JArr(elems: seq<JVal>)
    | JObj(fields: map<string, JVal>)

  /** What a present store entry yields when read back and parsed. */
  datatype Raw =
    | EmptyText
    | Malformed
    | Parsed(value: JVal)

  /** The key-value store; a key that is absent reads as `null`. */
  type Store = map<string, Raw>

  /** `getItem`: the entry under `key`, or `None` (null) when there is none. */
  function Get(store: Store, key: string): (r: Option<Raw>)
    ensures r.Some? <==> key in store
    ensures r.Some? ==> r.value == store[key]
  {
    if key in store then Some(store[key]) else None
  }

  /** JavaScript truthiness of a parsed value. */
  predicate Truthy(v: JVal) {
    match v
    case JNull => false
    case JBool(b) => b
    case JNum(n) => n != 0
    case JStr(s) => s != ""
    case JArr(_) => true
    case JObj(_) => true
  }

  /** Writing `v` under `key`; every other key keeps its entry. */
  function Put(store: Store, key: string, v: JVal): (r: Store)
    ensures key in r && r[key] == Parsed(v)
    ensures r - {key} == store - {key}
  {
    store[key := Parsed(v)]
  }

  /** A write that the store may refuse (quota exceeded, storage disabled):
   *  a refused write leaves the store as it was. */
  function TryPut(store: Store, key: string, v: JVal, accepts: bool): (r: Store)
    ensures accepts ==> key in r && r[key] == Parsed(v)
    ensures !accepts ==> r == store
    ensures r - {key} == store - {key}
  {
    if accepts then Put(store, key, v) else store
  }

  /** The string field `name` of an object, when it is present and a string. */
  function StrField(fields: map<string, JVal>, name: string): (r: Option<string>)
    ensures r.Some? <==> name in fields && fields[name].JStr?
    ensures r.Some? ==> fields[name] == JStr(r.value)
  {
    if name in fields && fields[name].JStr? then Some(fields[name].s) else None
  }

  /** The integer field `name` of an object, when it is present and a number. */
  function NumField(fields: map<string, JVal>, name: string): (r: Option<int>)
    ensures r.Some? <==> name in fields && fields[name].JNum?
    ensures r.Some? ==> fields[name] == JNum(r.value)
  {
    if name in fields && fields[name].JNum? then Some(fields[name].n) else None
  }
}

=== FILE: prompt_json.dfy ===
/**
 * How a prompt record is written to, and read back from, the key-value
 * store. JSON.stringify writes every field of the record and leaves out an
 * optional field that is undefined; the reader here is the typed reading of
 * such an object.
 */
module PromptJson {

  import opened Wrappers
  import opened Json
  import opened Catalog

  /** Adds `name` to an object when the optional value is present. */
  function WithOptional(fields: map<string, JVal>, name: string, v: Option<string>): (r: map<string, JVal>)
    ensures forall k :: k != name ==> (k in r <==> k in fields)
    ensures forall k :: k != name && k in fields ==> r[k] == fields[k]
    ensures v.Some? ==> name in r && r[name] == JStr(v.value)
    ensures v.None? ==> r == fields
  {
    if v.Some? then fields[name := JStr(v.value)] else fields
  }

  /** The object `fields` carries every always-present field of `p` under
   *  its own key. */
  predicate HasRequiredFields(fields: map<string, JVal>, p: Prompt) {
    && StrField(fields, "id") == Some(p.id)
    && StrField(fields, "title") == Some(p.title)
    && StrField(fields, "description") == Some(p.description)
    && StrField(fields, "model") == Some(ModelName(p.model))
    && NumField(fields, "price") == Some(p.price)
    && StrField(fields, "thumbnailUrl") == Some(p.thumbnailUrl)
    && StrField(fields, "sellerName") == Some(p.sellerName)
    && StrField(fields, "sellerAvatar") == Some(p.sellerAvatar)
    && NumField(fields, "salesCount") == Some(p.salesCount)
    && StrField(fields, "createdAt") == Some(p.createdAt)
  }

  /** The object `fields` carries every field of `p` under its own key. */
  predicate EncodesPrompt(fields: map<string, JVal>, p: Prompt) {
    && HasRequiredFields(fields, p)
    && OptionalField(fields, "content") == Some(p.content)
    && OptionalField(fields, "fullDescription") == Some(p.fullDescription)
  }

  /** The keys of the always-present fields. */
  const REQUIRED_KEYS: set<string> := {"id", "title", "description", "model", "price", "thumbnailUrl",
                                       "sellerName", "sellerAvatar", "salesCount", "createdAt"}

  /** Adding a field outside the required ones leaves them readable. */
  lemma WithOptionalKeepsRequired(fields: map<string, JVal>, name: string, v: Option<string>, p: Prompt)
    requires HasRequiredFields(fields, p) && name !in REQUIRED_KEYS
    ensures HasRequiredFields(WithOptional(fields, name, v), p)
  {
    var r := WithOptional(fields, name, v);
    forall k | k in REQUIRED_KEYS ensures k in r <==> k in fields ensures k in fields ==> r[k] == fields[k] {
    }
  }

  /** The always-present fields of a stored prompt. */
  function RequiredFields(p: Prompt): (fields: map<string, JVal>)
    ensures "content" !in fields && "fullDescription" !in fields
    ensures HasRequiredFields(fields, p)
  {
    map[
      "id" := JStr(p.id),
      "title" := JStr(p.title),
      "description" := JStr(p.description),
      "model" := JStr(ModelName(p.model)),
      "price" := JNum(p.price),
      "thumbnailUrl" := JStr(p.thumbnailUrl),
      "sellerName" := JStr(p.sellerName),
      "sellerAvatar" := JStr(p.sellerAvatar),
      "salesCount" := JNum(p.salesCount),
      "createdAt" := JStr(p.createdAt)
    ]
  }

  /** JSON.stringify of a prompt, as the parsed object it yields. */
  function EncodePrompt(p: Prompt): (j: JVal)
    ensures j.JObj?
    ensures EncodesPrompt(j.fields, p)
  {
    var base := RequiredFields(p);
    var withContent := WithOptional(base, "content", p.content);
    var fields := WithOptional(withContent, "fullDescription", p.fullDescription);
    WithOptionalKeepsRequired(base, "content", p.content, p);
    WithOptionalKeepsRequired(withContent, "fullDescription", p.fullDescription, p);
    assert "content" in fields <==> "content" in withContent;
    JObj(fields)
  }

  /** Reads an optional string field: absent is `Some(None)`, a string is
   *  `Some(Some(s))`, anything else does not read. */
  function OptionalField(fields: map<string, JVal>, name: string): (r: Option<Option<string>>)
    ensures r == Some(None) <==> name !in fields
    ensures forall s :: r == Some(Some(s)) <==> name in fields && fields[name] == JStr(s)
  {
    if name !in fields then Some(None)
    else if fields[name].JStr? then Some(Some(fields[name].s))
    else None
  }

  /** Reads a prompt record: an object whose fields have the prompt's types. */
  function DecodePrompt(j: JVal): (r: Option<Prompt>)
    ensures r.Some? ==> j.JObj? && EncodesPrompt(j.fields, r.value)
  {
    if !j.JObj? then None
    else
      var f := j.fields;
      var id :- StrField(f, "id");
      var title :- StrField(f, "title");
      var description :- StrField(f, "description");
      var modelName :- StrField(f, "model");
      var model :- ModelFromName(modelName);
      var price :- NumField(f, "price");
      var thumbnailUrl :- StrField(f, "thumbnailUrl");
      var sellerName :- StrField(f, "sellerName");
      var sellerAvatar :- StrField(f, "sellerAvatar");
      var salesCount :- NumField(f, "salesCount");
      var createdAt :- StrField(f, "createdAt");
      var content :- OptionalField(f, "content");
      var fullDescription :- OptionalField(f, "fullDescription");
      Some(Prompt(id, title, description, model, price, thumbnailUrl, sellerName,
                  sellerAvatar, salesCount, createdAt, content, fullDescription))
  }

  /** A stored prompt reads back as the prompt that was stored. */
  lemma PromptRoundTrip(p: Prompt)
    ensures DecodePrompt(EncodePrompt(p)) == Some(p)
  {
    var f := EncodePrompt(p).fields;
    assert EncodesPrompt(f, p);
    ModelNameRoundTrip(p.model);
  }
}

=== FILE: purchases.dfy ===
/**
 * The purchased-prompt id list kept in the key-value store. Reads keep only
 * the string elements of a stored array; writes de-duplicate, keeping the
 * first occurrence of each id; adding is a union with what is stored; a
 * failed write is ignored.
 */
module Purchases {

  import opened Wrappers
  import opened Json
  import opened Seqs

  const PURCHASE_KEY: string := "promptly_purchased_prompt_ids"

  function IsString(v: JVal): bool {
    v.JStr?
  }

  /** The ids as the JSON array of strings JSON.stringify writes. */
  function EncodeIds(ids: seq<string>): (r: seq<JVal>)
    ensures |r| == |ids|
    ensures forall i :: 0 <= i < |ids| ==> r[i] == JStr(ids[i])
  {
    seq(|ids|, i requires 0 <= i < |ids| => JStr(ids[i]))
  }

  /** The texts of a list of JSON strings. */
  function Texts(vs: seq<JVal>): (r: seq<string>)
    requires forall i :: 0 <= i < |vs| ==> vs[i].JStr?
    ensures EncodeIds(r) == vs
  {
    var r := seq(|vs|, i requires 0 <= i < |vs| => vs[i].s);
    assert EncodeIds(r) == vs;
    r
  }

  /** `safeParseIds`: an absent, empty, unparsable or non-array value reads
   *  as no ids; an array reads as its string elements, in order. */
  function SafeParseIds(raw: Option<Raw>): (r: seq<string>)
    ensures raw.None? || raw == Some(EmptyText) || raw == Some(Malformed) ==> r == []
    ensures raw.Some? && raw.value.Parsed? && !raw.value.value.JArr? ==> r == []
    ensures raw.Some? && raw.value.Parsed? && raw.value.value.JArr? ==>
              EncodeIds(r) == Filter(IsString, raw.value.value.elems)
  {
    match raw
    case None => []
    case Some(EmptyText) => []
    case Some(Malformed) => []
    case Some(Parsed(v)) =>
      if v.JArr? then Texts(Filter(IsString, v.elems)) else []
  }

  /** The ids read from an array are exactly its string elements. */
  lemma SafeParseIdsKeepsStrings(es: seq<JVal>, id: string)
    ensures id in SafeParseIds(Some(Parsed(JArr(es)))) <==> JStr(id) in es
  {
    var r := SafeParseIds(Some(Parsed(JArr(es))));
    var kept := Filter(IsString, es);
    if id in r {
      var i :| 0 <= i < |r| && r[i] == id;
      assert kept[i] == JStr(id);
    }
    if JStr(id) in es {
      assert JStr(id) in kept;
      var i :| 0 <= i < |kept| && kept[i] == JStr(id);
      assert EncodeIds(r)[i] == JStr(id);
    }
  }

  /** `getPurchasedPromptIds`: the string elements of the array stored under
   *  the key, in order; nothing when the key is absent. */
  function GetPurchasedPromptIds(store: Store): (r: seq<string>)
    ensures PURCHASE_KEY !in store ==> r == []
    ensures PURCHASE_KEY in store && !(store[PURCHASE_KEY].Parsed? && store[PURCHASE_KEY].value.JArr?) ==> r == []
    ensures PURCHASE_KEY in store && store[PURCHASE_KEY].Parsed? && store[PURCHASE_KEY].value.JArr? ==>
              EncodeIds(r) == Filter(IsString, store[PURCHASE_KEY].value.elems)
    ensures forall i :: 0 <= i < |r| ==>
              PURCHASE_KEY in store && store[PURCHASE_KEY].Parsed? && store[PURCHASE_KEY].value.JArr?
              && JStr(r[i]) in store[PURCHASE_KEY].value.elems
  {
    var r := SafeParseIds(Get(store, PURCHASE_KEY));
    assert forall i :: 0 <= i < |r| ==> EncodeIds(r)[i] == JStr(r[i]);
    r
  }

  /** A stored id list reads back as itself. */
  lemma IdsRoundTrip(ids: seq<string>)
    ensures SafeParseIds(Some(Parsed(JArr(EncodeIds(ids))))) == ids
  {
    var r := SafeParseIds(Some(Parsed(JArr(EncodeIds(ids)))));
    assert Filter(IsString, EncodeIds(ids)) == EncodeIds(ids);
    assert |r| == |ids|;
    forall i | 0 <= i < |ids| ensures r[i] == ids[i] {
      assert EncodeIds(r)[i] == EncodeIds(ids)[i];
    }
  }

  /** `savePurchasedPromptIds`: the ids, each kept at its first occurrence,
   *  written under the purchase key; a refused write changes nothing. */
  function SavePurchasedPromptIds(store: Store, ids: seq<string>, accepts: bool): (r: Store)
    ensures accepts ==> GetPurchasedPromptIds(r) == Dedup(ids)
    ensures !accepts ==> r == store
    ensures r - {PURCHASE_KEY} == store - {PURCHASE_KEY}
  {
    IdsRoundTrip(Dedup(ids));
    TryPut(store, PURCHASE_KEY, JArr(EncodeIds(Dedup(ids))), accepts)
  }

  /** What a save stores: no id twice, the same ids as given, in order of
   *  first occurrence. */
  lemma SaveStoresFirstOccurrences(store: Store, ids: seq<string>)
    ensures NoDup(GetPurchasedPromptIds(SavePurchasedPromptIds(store, ids, true)))
    ensures forall id :: id in GetPurchasedPromptIds(SavePurchasedPromptIds(store, ids, true)) <==> id in ids
    ensures InFirstOccurrenceOrder(GetPurchasedPromptIds(SavePurchasedPromptIds(store, ids, true)), ids)
  {
    var d := Dedup(ids);
    forall id ensures id in d <==> id in ids {
      if id in ids {
        var i :| 0 <= i < |ids| && ids[i] == id;
      }
    }
  }

  /** Saving a list without repeats stores it unchanged, so saving what was
   *  read back stores the same list again. */
  lemma SaveDistinctUnchanged(store: Store, ids: seq<string>)
    requires NoDup(ids)
    ensures GetPurchasedPromptIds(SavePurchasedPromptIds(store, ids, true)) == ids
    ensures var once := SavePurchasedPromptIds(store, ids, true);
            SavePurchasedPromptIds(once, GetPurchasedPromptIds(once), true) == once
  {
  }

  /** `addPurchasedPromptIds`: nothing happens for an empty list; otherwise
   *  the stored ids followed by the new ones are saved. */
  function AddPurchasedPromptIds(store: Store, ids: seq<string>, accepts: bool): (r: Store)
    ensures |ids| == 0 || !accepts ==> r == store
    ensures |ids| > 0 && accepts ==>
              GetPurchasedPromptIds(r) == Dedup(GetPurchasedPromptIds(store) + ids)
    ensures r - {PURCHASE_KEY} == store - {PURCHASE_KEY}
  {
    if |ids| == 0 then store
    else SavePurchasedPromptIds(store, GetPurchasedPromptIds(store) + ids, accepts)
  }

  /** `isPromptPurchased`: the empty id is never purchased; any other id is
   *  purchased when the stored list holds it. */
  function IsPromptPurchased(store: Store, id: string): (r: bool)
    ensures id == "" ==> !r
    ensures id != "" ==> (r <==> id in GetPurchasedPromptIds(store))
  {
    if id == "" then false
    else id in GetPurchasedPromptIds(store)
  }

  /** After a successful add, the new ids and every id purchased before are
   *  reported purchased (the empty id excepted). */
  lemma AddMarksPurchased(store: Store, ids: seq<string>, id: string)
    requires |ids| > 0
    requires id != ""
    requires id in ids || IsPromptPurchased(store, id)
    ensures IsPromptPurchased(AddPurchasedPromptIds(store, ids, true), id)
  {
    var all := GetPurchasedPromptIds(store) + ids;
    assert id in all;
    var i :| 0 <= i < |all| && all[i] == id;
  }

  /** A refused write and an empty add leave every id's status as it was. */
  lemma FailedAddKeepsStatus(store: Store, ids: seq<string>, id: string)
    ensures IsPromptPurchased(AddPurchasedPromptIds(store, ids, false), id) == IsPromptPurchased(store, id)
    ensures IsPromptPurchased(AddPurchasedPromptIds(store, [], true), id) == IsPromptPurchased(store, id)
  {
  }

  /** Ids are never lost: an add only ever grows the purchased set. */
  lemma AddIsMonotone(store: Store, ids: seq<string>, accepts: bool, id: string)
    requires IsPromptPurchased(store, id)
    ensures IsPromptPurchased(AddPurchasedPromptIds(store, ids, accepts), id)
  {
    if |ids| > 0 && accepts {
      AddMarksPurchased(store, ids, id);
    }
  }
}

=== FILE: seqs.dfy ===
/**
 * Sequence operations shared by the client-state layer: JavaScript's
 * `Array.prototype.filter`, de-duplication through `Array.from(new Set(xs))`,
 * and the subsequence relation that states "order is kept".
 */
module Seqs {

  import opened Wrappers

  /** No element occurs twice. */
  predicate NoDup<T(==)>(s: seq<T>) {
    forall i, j :: 0 <= i < j < |s| ==> s[i] != s[j]
  }

  /** `a` can be obtained from `b` by deleting elements. */
  predicate IsSubsequence<T(==)>(a: seq<T>, b: seq<T>)
    decreases |b|
  {
    if |a| == 0 then true
    else if |b| == 0 then false
    else if a[0] == b[0] then IsSubsequence(a[1..], b[1..])
    else IsSubsequence(a, b[1..])
  }

  /** `xs.filter(f)`: the elements satisfying `f`, left to right. */
  function Filter<T>(f: T -> bool, s: seq<T>): (r: seq<T>)
    ensures |r| <= |s|
    ensures forall i :: 0 <= i < |r| ==> f(r[i])
    ensures forall i :: 0 <= i < |r| ==> r[i] in s
    ensures forall i :: 0 <= i < |s| && f(s[i]) ==> s[i] in r
    ensures (forall i :: 0 <= i < |s| ==> f(s[i])) ==> r == s
    decreases |s|
  {
    if |s| == 0 then []
    else (if f(s[0]) then [s[0]] else []) + Filter(f, s[1..])
  }

  /** Filtering keeps every passing element as often as it occurs, and no
   *  failing one. */
  lemma {:induction false} FilterCounts<T>(f: T -> bool, s: seq<T>)
    ensures forall x :: multiset(Filter(f, s))[x] == if f(x) then multiset(s)[x] else 0
    decreases |s|
  {
    if |s| > 0 {
      FilterCounts(f, s[1..]);
      assert s == [s[0]] + s[1..];
    }
  }

  /** No two elements share a key. */
  predicate DistinctBy<T, K(==)>(key: T -> K, s: seq<T>) {
    forall i, j :: 0 <= i < j < |s| ==> key(s[i]) != key(s[j])
  }

  /** Filtering keeps keys distinct. */
  lemma {:induction false} FilterKeepsDistinctBy<T(!new), K>(key: T -> K, f: T -> bool, s: seq<T>)
    requires DistinctBy(key, s)
    ensures DistinctBy(key, Filter(f, s))
    decreases |s|
  {
    if |s| > 0 {
      var tail := s[1..];
      assert DistinctBy(key, tail) by {
        forall i, j | 0 <= i < j < |tail| ensures key(tail[i]) != key(tail[j]) {
          assert tail[i] == s[i + 1] && tail[j] == s[j + 1];
        }
      }
      FilterKeepsDistinctBy(key, f, tail);
      var rest := Filter(f, tail);
      if f(s[0]) {
        var r := Filter(f, s);
        assert r == [s[0]] + rest;
        forall i, j | 0 <= i < j < |r|
          ensures key(r[i]) != key(r[j])
        {
          if i == 0 {
            assert r[j] == rest[j - 1];
            var k :| 0 <= k < |tail| && tail[k] == r[j];
            assert s[k + 1] == r[j];
          } else {
            assert r[i] == rest[i - 1] && r[j] == rest[j - 1];
          }
        }
      } else {
        assert Filter(f, s) == rest;
      }
    }
  }

  /** Filtering distributes over concatenation. */
  lemma {:induction false} FilterConcat<T>(f: T -> bool, a: seq<T>, b: seq<T>)
    ensures Filter(f, a + b) == Filter(f, a) + Filter(f, b)
    decreases |a|
  {
    if |a| == 0 {
      assert a + b == b;
    } else {
      assert (a + b)[1..] == a[1..] + b;
      FilterConcat(f, a[1..], b);
    }
  }

  /** When exactly the element at `k` fails `f`, filtering removes just it. */
  lemma {:induction false} FilterRemovesOne<T>(f: T -> bool, s: seq<T>, k: nat)
    requires k < |s| && !f(s[k])
    requires forall i :: 0 <= i < |s| && i != k ==> f(s[i])
    ensures Filter(f, s) == s[..k] + s[k + 1..]
    decreases k
  {
    var tail := s[1..];
    if k == 0 {
      assert forall i :: 0 <= i < |tail| ==> f(tail[i]) by {
        forall i | 0 <= i < |tail| ensures f(tail[i]) {
          assert tail[i] == s[i + 1];
        }
      }
      assert Filter(f, s) == Filter(f, tail);
    } else {
      assert forall i :: 0 <= i < |tail| && i != k - 1 ==> f(tail[i]) by {
        forall i | 0 <= i < |tail| && i != k - 1 ensures f(tail[i]) {
          assert tail[i] == s[i + 1];
        }
      }
      FilterRemovesOne(f, tail, k - 1);
      assert Filter(f, s) == [s[0]] + (tail[..k - 1] + tail[k..]);
      assert [s[0]] + tail[..k - 1] == s[..k];
      assert tail[k..] == s[k + 1..];
    }
  }

  /** A filtered sequence keeps the order of the original. */
  lemma {:induction false} FilterIsSubsequence<T>(f: T -> bool, s: seq<T>)
    ensures IsSubsequence(Filter(f, s), s)
    decreases |s|
  {
    if |s| > 0 {
      FilterIsSubsequence(f, s[1..]);
      assert s == [s[0]] + s[1..];
      if f(s[0]) {
        assert Filter(f, s)[1..] == Filter(f, s[1..]);
      } else {
        assert Filter(f, s) == Filter(f, s[1..]);
        SubsequencePrepend(Filter(f, s), s[1..], s[0]);
      }
    }
  }

  /** Every sequence is a subsequence of itself. */
  lemma {:induction false} SubsequenceReflexive<T>(s: seq<T>)
    ensures IsSubsequence(s, s)
    decreases |s|
  {
    if |s| > 0 {
      SubsequenceReflexive(s[1..]);
    }
  }

  /** A subsequence stays one when the larger sequence grows at the front. */
  lemma {:induction false} SubsequencePrepend<T>(a: seq<T>, b: seq<T>, x: T)
    requires IsSubsequence(a, b)
    ensures IsSubsequence(a, [x] + b)
    decreases |b|, 1
  {
    assert ([x] + b)[1..] == b;
    if |a| > 0 && a[0] == x {
      SubsequenceDropHead(a, b);
    }
  }

  /** Dropping the first element keeps a subsequence a subsequence. */
  lemma {:induction false} SubsequenceDropHead<T>(a: seq<T>, b: seq<T>)
    requires |a| > 0 && IsSubsequence(a, b)
    ensures IsSubsequence(a[1..], b)
    decreases |b|, 0
  {
    assert b == [b[0]] + b[1..];
    if a[0] != b[0] {
      SubsequenceDropHead(a, b[1..]);
    }
    SubsequencePrepend(a[1..], b[1..], b[0]);
  }

  /** Position of the first occurrence of `x` in `s`, or `|s|` when absent. */
  function IndexOf<T(==)>(s: seq<T>, x: T): (k: nat)
    ensures k <= |s|
    ensures k < |s| <==> x in s
    ensures k < |s| ==> s[k] == x
    ensures forall i :: 0 <= i < k ==> s[i] != x
    decreases |s|
  {
    if |s| == 0 then 0
    else if s[0] == x then 0
    else 1 + IndexOf(s[1..], x)
  }

  /** Extending a sequence does not move the first occurrence of an element
   *  already present. */
  lemma IndexOfExtend<T>(s: seq<T>, y: T, x: T)
    requires x in s
    ensures IndexOf(s + [y], x) == IndexOf(s, x)
  {
    var k := IndexOf(s, x);
    var t := s + [y];
    assert t[k] == x;
    assert forall i :: 0 <= i < k ==> t[i] != x;
  }

  /** The elements of `r` appear in the order of their first occurrence in `s`. */
  predicate InFirstOccurrenceOrder<T(==)>(r: seq<T>, s: seq<T>) {
    forall i, j :: 0 <= i < j < |r| ==> IndexOf(s, r[i]) < IndexOf(s, r[j])
  }

  /** `Array.from(new Set(s))`: a Set iterates in insertion order, so this is
   *  `s` with every repeated occurrence after the first removed. */
  function Dedup<T(==)>(s: seq<T>): (r: seq<T>)
    ensures NoDup(r)
    ensures forall i :: 0 <= i < |r| ==> r[i] in s
    ensures forall i :: 0 <= i < |s| ==> s[i] in r
    ensures InFirstOccurrenceOrder(r, s)
    ensures NoDup(s) ==> r == s
    decreases |s|
  {
    if |s| == 0 then []
    else
      var init := s[..|s| - 1];
      var last := s[|s| - 1];
      assert s == init + [last];
      var d := Dedup(init);
      DedupStep(init, last, d);
      if last in d then d else d + [last]
  }

  /** Appending one element to the input of `Dedup`. */
  lemma DedupSnoc<T>(s: seq<T>, x: T)
    ensures Dedup(s + [x]) == if x in s then Dedup(s) else Dedup(s) + [x]
  {
    var t := s + [x];
    assert t[..|t| - 1] == s;
    assert x in Dedup(s) <==> x in s;
  }

  /** The step of `Dedup` that handles one more element. */
  lemma DedupStep<T>(init: seq<T>, last: T, d: seq<T>)
    requires NoDup(d)
    requires forall i :: 0 <= i < |d| ==> d[i] in init
    requires forall i :: 0 <= i < |init| ==> init[i] in d
    requires InFirstOccurrenceOrder(d, init)
    ensures last in d ==> InFirstOccurrenceOrder(d, init + [last])
    ensures last !in d ==> InFirstOccurrenceOrder(d + [last], init + [last])
    ensures last !in d ==> NoDup(d + [last])
  {
    var s := init + [last];
    forall x | x in init
      ensures IndexOf(s, x) == IndexOf(init, x)
    {
      IndexOfExtend(init, last, x);
    }
    if last !in d {
      var e := d + [last];
      assert IndexOf(s, last) == |init| by {
        assert s[|init|] == last;
      }
      forall i, j | 0 <= i < j < |e|
        ensures IndexOf(s, e[i]) < IndexOf(s, e[j])
      {
        assert e[i] in init;
        if j < |d| {
          assert e[j] in init;
        }
      }
    }
  }

  /** `xs.find(f)`: the first element satisfying `f`, if any. */
  function FindFirst<T>(f: T -> bool, s: seq<T>): (r: Option<T>)
    ensures r.None? <==> forall i :: 0 <= i < |s| ==> !f(s[i])
    ensures r.Some? ==> exists k :: 0 <= k < |s| && s[k] == r.value && f(s[k])
                                   && forall i :: 0 <= i < k ==> !f(s[i])
    decreases |s|
  {
    if |s| == 0 then None
    else if f(s[0]) then Some(s[0])
    else
      var r := FindFirst(f, s[1..]);
      assert r.Some? ==> exists k :: 0 <= k < |s| && s[k] == r.value && f(s[k])
                                   && forall i :: 0 <= i < k ==> !f(s[i]) by {
        if r.Some? {
          var k :| 0 <= k < |s| - 1 && s[1..][k] == r.value && f(s[1..][k])
                   && forall i :: 0 <= i < k ==> !f(s[1..][i]);
          assert forall i :: 0 <= i < k + 1 ==> !f(s[i]) by {
            forall i | 0 <= i < k + 1 ensures !f(s[i]) {
              if i > 0 { assert s[i] == s[1..][i - 1]; }
            }
          }
        }
      }
      r
  }

  /** Appending cannot change a match that was already found. */
  lemma {:induction false} FindFirstExtend<T>(f: T -> bool, s: seq<T>, x: T)
    requires FindFirst(f, s).Some?
    ensures FindFirst(f, s + [x]) == FindFirst(f, s)
    decreases |s|
  {
    assert (s + [x])[0] == s[0];
    if !f(s[0]) {
      assert (s + [x])[1..] == s[1..] + [x];
      FindFirstExtend(f, s[1..], x);
    }
  }

  /** `xs.map(f)`. */
  function Map<T, U>(f: T -> U, s: seq<T>): (r: seq<U>)
    ensures |r| == |s|
    ensures forall i :: 0 <= i < |s| ==> r[i] == f(s[i])
    decreases |s|
  {
    if |s| == 0 then [] else [f(s[0])] + Map(f, s[1..])
  }

  /** Reads every element with `f`; fails as soon as one does not read. */
  function ReadAll<T, U>(f: T -> Option<U>, s: seq<T>): (r: Option<seq<U>>)
    ensures r.Some? ==> |r.value| == |s|
    ensures r.Some? ==> forall i :: 0 <= i < |s| ==> f(s[i]) == Some(r.value[i])
    decreases |s|
  {
    if |s| == 0 then Some([])
    else
      var first :- f(s[0]);
      var rest :- ReadAll(f, s[1..]);
      Some([first] + rest)
  }

  /** When `read` undoes `write` on every element, reading the written
   *  sequence gives the sequence back. */
  lemma {:induction false} ReadAllMap<T, U>(write: T -> U, read: U -> Option<T>, s: seq<T>)
    requires forall i :: 0 <= i < |s| ==> read(write(s[i])) == Some(s[i])
    ensures ReadAll(read, Map(write, s)) == Some(s)
    decreases |s|
  {
    if |s| > 0 {
      var w := Map(write, s);
      assert w[1..] == Map(write, s[1..]);
      ReadAllMap(write, read, s[1..]);
      assert s == [s[0]] + s[1..];
    }
  }

  /** Appending an element the filter rejects to a sequence it keeps whole
   *  filters back to that sequence. */
  lemma FilterDropsRejectedLast<T>(f: T -> bool, s: seq<T>, x: T)
    requires forall i :: 0 <= i < |s| ==> f(s[i])
    requires !f(x)
    ensures Filter(f, s + [x]) == s
  {
    FilterConcat(f, s, [x]);
    assert Filter(f, [x]) == [];
  }

  /** A sequence is its part before `k`, its element at `k`, and the rest. */
  lemma SplitAt<T>(s: seq<T>, k: nat)
    requires k < |s|
    ensures s == s[..k] + [s[k]] + s[k + 1..]
  {
  }
}

=== FILE: user_prompts.dfy ===
/**
 * Prompts submitted by the user, kept as a JSON array in the key-value
 * store. Reads keep only the elements that are objects with both an `id`
 * and a `title` key; these records are otherwise unchecked, so the model
 * keeps them as parsed objects. Adding appends without de-duplication;
 * finding returns the first record with the id; a failed write is ignored.
 */
module UserPrompts {

  import opened Wrappers
  import opened Json
  import opened Seqs
  import opened Catalog
  import opened PromptJson

  const STORAGE_KEY: string := "promptly_user_prompts"

  /** The shape check of the reader: a non-null object with `id` and `title`. */
  function IsPromptRecord(v: JVal): bool {
    v.JObj? && "id" in v.fields && "title" in v.fields
  }

  /** `safeParse`: an absent, empty, unparsable or non-array value reads as
   *  no prompts; an array reads as its prompt records, in order. */
  function SafeParse(raw: Option<Raw>): (r: seq<JVal>)
    ensures raw.None? || raw == Some(EmptyText) || raw == Some(Malformed) ==> r == []
    ensures raw.Some? && raw.value.Parsed? && !raw.value.value.JArr? ==> r == []
    ensures forall i :: 0 <= i < |r| ==> IsPromptRecord(r[i])
    ensures raw.Some? && raw.value.Parsed? && raw.value.value.JArr? ==>
              && IsSubsequence(r, raw.value.value.elems)
              && (forall i :: 0 <= i < |raw.value.value.elems| && IsPromptRecord(raw.value.value.elems[i])
                    ==> raw.value.value.elems[i] in r)
              && forall x :: multiset(r)[x] == if IsPromptRecord(x) then multiset(raw.value.value.elems)[x] else 0
  {
    match raw
    case None => []
    case Some(EmptyText) => []
    case Some(Malformed) => []
    case Some(Parsed(v)) =>
      if v.JArr? then
        FilterIsSubsequence(IsPromptRecord, v.elems);
        FilterCounts(IsPromptRecord, v.elems);
        Filter(IsPromptRecord, v.elems)
      else []
  }

  /** `getUserPrompts`: the prompt records of the array stored under the
   *  key, in order; nothing when the key is absent. */
  function GetUserPrompts(store: Store): (r: seq<JVal>)
    ensures STORAGE_KEY !in store ==> r == []
    ensures STORAGE_KEY in store && !(store[STORAGE_KEY].Parsed? && store[STORAGE_KEY].value.JArr?) ==> r == []
    ensures forall i :: 0 <= i < |r| ==> IsPromptRecord(r[i])
    ensures STORAGE_KEY in store && store[STORAGE_KEY].Parsed? && store[STORAGE_KEY].value.JArr? ==>
              && IsSubsequence(r, store[STORAGE_KEY].value.elems)
              && forall x :: multiset(r)[x] == if IsPromptRecord(x) then multiset(store[STORAGE_KEY].value.elems)[x] else 0
    ensures forall i :: 0 <= i < |r| ==>
              STORAGE_KEY in store && store[STORAGE_KEY].Parsed? && store[STORAGE_KEY].value.JArr?
              && r[i] in store[STORAGE_KEY].value.elems
  {
    SafeParse(Get(store, STORAGE_KEY))
  }

  /** `saveUserPrompts`: the list written under the key; a refused write
   *  changes nothing. */
  function SaveUserPrompts(store: Store, records: seq<JVal>, accepts: bool): (r: Store)
    ensures accepts && (forall i :: 0 <= i < |records| ==> IsPromptRecord(records[i]))
            ==> GetUserPrompts(r) == records
    ensures !accepts ==> r == store
    ensures r - {STORAGE_KEY} == store - {STORAGE_KEY}
  {
    TryPut(store, STORAGE_KEY, JArr(records), accepts)
  }

  /** `addUserPrompt`: the stored list with the prompt appended is saved,
   *  and the prompt itself is returned. */
  function AddUserPrompt(store: Store, prompt: Prompt, accepts: bool): (r: (Store, Prompt))
    ensures r.1 == prompt
    ensures accepts ==> GetUserPrompts(r.0) == GetUserPrompts(store) + [EncodePrompt(prompt)]
    ensures accepts ==> |GetUserPrompts(r.0)| == |GetUserPrompts(store)| + 1
    ensures !accepts ==> r.0 == store
    ensures r.0 - {STORAGE_KEY} == store - {STORAGE_KEY}
  {
    var current := GetUserPrompts(store);
    var next := current + [EncodePrompt(prompt)];
    AppendRecord(current, prompt);
    (SaveUserPrompts(store, next, accepts), prompt)
  }

  /** A stored prompt passes the reader's shape check, so appending it to
   *  records keeps a list of records. */
  lemma AppendRecord(records: seq<JVal>, prompt: Prompt)
    requires forall i :: 0 <= i < |records| ==> IsPromptRecord(records[i])
    ensures forall i :: 0 <= i < |records| + 1 ==> IsPromptRecord((records + [EncodePrompt(prompt)])[i])
  {
    var e := EncodePrompt(prompt);
    assert StrField(e.fields, "id").Some? && StrField(e.fields, "title").Some?;
    assert IsPromptRecord(e);
  }

  /** The record's `id` is the string `id`. */
  function HasId(id: string): JVal -> bool {
    (v: JVal) => v.JObj? && "id" in v.fields && v.fields["id"] == JStr(id)
  }

  /** `findUserPromptById`: the first stored record whose id matches. */
  function FindUserPromptById(store: Store, id: string): (r: Option<JVal>)
    ensures r.None? <==> forall i :: 0 <= i < |GetUserPrompts(store)| ==> !HasId(id)(GetUserPrompts(store)[i])
    ensures r.Some? ==> exists k :: 0 <= k < |GetUserPrompts(store)|
                          && GetUserPrompts(store)[k] == r.value && HasId(id)(r.value)
                          && forall i :: 0 <= i < k ==> !HasId(id)(GetUserPrompts(store)[i])
  {
    FindFirst(HasId(id), GetUserPrompts(store))
  }

  /** After a successful add, the prompt's id is found. */
  lemma AddThenFind(store: Store, prompt: Prompt)
    ensures FindUserPromptById(AddUserPrompt(store, prompt, true).0, prompt.id).Some?
  {
    var after := GetUserPrompts(AddUserPrompt(store, prompt, true).0);
    assert after[|after| - 1] == EncodePrompt(prompt);
    assert HasId(prompt.id)(after[|after| - 1]);
  }

  /** When no earlier record has the id, the added prompt is the one found,
   *  and it reads back as that prompt. */
  lemma AddThenFindFresh(store: Store, prompt: Prompt)
    requires FindUserPromptById(store, prompt.id).None?
    ensures FindUserPromptById(AddUserPrompt(store, prompt, true).0, prompt.id) == Some(EncodePrompt(prompt))
    ensures DecodePrompt(FindUserPromptById(AddUserPrompt(store, prompt, true).0, prompt.id).value) == Some(prompt)
  {
    var before := GetUserPrompts(store);
    var after := GetUserPrompts(AddUserPrompt(store, prompt, true).0);
    var r := FindUserPromptById(AddUserPrompt(store, prompt, true).0, prompt.id);
    assert after == before + [EncodePrompt(prompt)];
    assert r.Some? by {
      AddThenFind(store, prompt);
    }
    var k :| 0 <= k < |after| && after[k] == r.value && HasId(prompt.id)(r.value)
             && forall i :: 0 <= i < k ==> !HasId(prompt.id)(after[i]);
    PromptRoundTrip(prompt);
  }

  /** When an earlier record has the id, the add does not change what is found. */
  lemma AddDoesNotShadow(store: Store, prompt: Prompt)
    requires FindUserPromptById(store, prompt.id).Some?
    ensures FindUserPromptById(AddUserPrompt(store, prompt, true).0, prompt.id)
            == FindUserPromptById(store, prompt.id)
  {
    var before := GetUserPrompts(store);
    var after := GetUserPrompts(AddUserPrompt(store, prompt, true).0);
    assert after == before + [EncodePrompt(prompt)];
    FindFirstExtend(HasId(prompt.id), before, EncodePrompt(prompt));
  }
}

=== FILE: wrappers.dfy ===
/** Optional values: the model's stand-in for `T | null` and `T | undefined`. */
module Wrappers {

  datatype Option<+T> = None | Some(value: T) {

    /** None stops a `:-` chain. */
    predicate IsFailure() {
      None?
    }

    function PropagateFailure<U>(): Option<U>
      requires None?
    {
      None
    }

    function Extract(): T
      requires Some?
    {
      value
    }

    /** The value held, or `default` when there is none. */
    function GetOr(default: T): T {
      match this
      case Some(v) => v
      case None => default
    }
  }
}
